=== FILE: README.md ===
# byp-poc parts catalogue: a Dafny model

byp-poc is a web catalogue of used car parts gathered from wreckers. This
project models the logic that decides what a user sees:

- **The parts page** (`app/parts/page.tsx`). The listing query narrows the
  `Part` table by make, model and source with equality conditions. It also
  matches the search text case-insensitively, with `ILIKE '%q%'` on the title
  or the description. The make and model facets are distinct, non-empty values
  in ascending order. The source list comes from the store. The caption reads
  "Showing n part(s)". Every store read that fails degrades to an empty list.
- **The part card** (`components/PartCard.tsx`). It holds three display lines:
  - the make/model/year line, with its year-range rule;
  - the image URL, with doubled path separators collapsed;
  - the suburb/state location line.
- **The filter form** (`components/FilterForm.tsx`). The submit handler writes
  each non-empty field into a `URLSearchParams` with `set`. It then navigates
  to `/parts?…`, which the parts page reads back as its filter record.

The store is an in-memory table: a `Reply<T>` is either the rows, in table
order, or the store's error. The query builder in `getParts` is a method. It
adds conditions step by step, as the source reassigns its query builder. It is
proved to select exactly what the `Matches` predicate describes. The store's
evaluation of a query is a filter over the table with SQL NULL semantics.
PostgreSQL `LIKE` is modelled as a real pattern matcher, with `%` and `_`.
`ILIKE` lower-cases ASCII letters on both sides. `URLSearchParams` is a class
whose entry list `set` reassigns.

JavaScript truthiness is explicit. A string counts only when it is present and
not `""`. A number counts only when it is present and not `0`. The default
`Array.prototype.sort()` is lexicographic order on characters. `String(n)` of
an integer is its shortest decimal numeral, with a leading `-` when negative.

Modules:

- `Wrappers`: `Option` and `Result`.
- `Strings`: lexicographic order, ASCII lower-casing, `LIKE`/`ILIKE`,
  `filter(Boolean).join`, and decimal numerals.
- `Sorting`: `Array.from(new Set(…))` and `sort()`.
- `Catalog`: the `Part`, `Source` and `Filters` records, and truthiness.
- `PartsPage`, `PartCard`, `FilterForm`: the three source files.

The `Part` record carries the columns that the parts page and the card read.
These are `title`, `description`, `sourceId`, `vehicleMake`, `vehicleModel`,
`yearFrom`, `yearTo`, `imageUrl`, `locationSuburb` and `locationState`. The
`Part` interface declared in `lib/supabase.ts` (lines 19-31) is an older flat
schema that the code no longer reads, so it is not part of this model.

## Model

| member | source | states |
|---|---|---|
| `PartsPage.BuildQuery` | app/parts/page.tsx:15-42 | A row satisfies the built query exactly when it matches every truthy filter field: make, model and source by equality, and the text as `ILIKE '%q%'` on the title or a non-NULL description. The query is empty exactly when no field is truthy. It has at most four conditions. |
| `PartsPage.Evaluate` | app/parts/page.tsx:44 | The store returns the table rows that satisfy every condition, and no others. It never returns more rows than the table holds. |
| `PartsPage.EvaluateIsListing` | app/parts/page.tsx:16-44 | Running the built query on a table gives the listing that the filter record describes, with rows in table order. |
| `PartsPage.GetParts` | app/parts/page.tsx:15-52 | A store error gives no parts. Otherwise the result is the table's rows that match the filters, in table order. |
| `PartsPage.TextMatches` | app/parts/page.tsx:40-41 | No contract of its own. It states the `or` of the title and description `ILIKE '%q%'` conditions, with a NULL description never matching. `PartsPage.ListedPartsContainSearchText` gives its meaning as a case-insensitive substring test. |
| `PartsPage.Matches` | app/parts/page.tsx:27-42 | No contract of its own. It states the filter record as a predicate on one part. `PartsPage.BuildQuery` proves that the built query selects exactly the parts it accepts. |
| `PartsPage.Listing` | app/parts/page.tsx:15-51 | No contract of its own. It is the reference listing: the rows that `Matches` accepts, in table order. `PartsPage.EvaluateIsListing`, `PartsPage.ListingCount` and `PartsPage.ListingComplete` fix its meaning. |
| `PartsPage.ListingCount` | app/parts/page.tsx:15-51 | A matching row is listed as many times as the table holds it. A non-matching row is never listed. |
| `PartsPage.ListedPartsMeetFilters` | app/parts/page.tsx:27-42 | A listed part is stored. Its `vehicleMake`, `vehicleModel` and `sourceId` equal each truthy make, model and source filter. With a truthy `q`, its title or non-NULL description is `ILIKE '%q%'`. |
| `PartsPage.ListedPartsContainSearchText` | app/parts/page.tsx:39-42 | For search text without special characters (`Strings.Literal`: `%`, `_`, `\`, `*`, `,`, `(`, `)`), a listed part contains that text, ignoring ASCII case, in its title or in a non-NULL description. |
| `PartsPage.ListingComplete` | app/parts/page.tsx:15-51 | Every stored part that meets all active filters is listed. |
| `PartsPage.ListingUnfiltered` | app/parts/page.tsx:15-51 | With no truthy filter field, the listing is the whole table, unchanged and unlimited. |
| `PartsPage.DropEmptyFields` | app/parts/page.tsx:27-39 | The filter record with each empty field made absent. No field of the result is `""`. |
| `PartsPage.EmptyFieldIsAbsent` | app/parts/page.tsx:27-42 | An empty-string filter field selects exactly what an absent field selects. |
| `PartsPage.ToyotaBumperScenario` | app/parts/page.tsx:27-42 | Take a Toyota "Front Bumper" and a Honda "Rear Bumper", filtered by make Toyota and text "bumper". Only the Toyota part is listed. |
| `PartsPage.NonNullColumn` | app/parts/page.tsx:54-88 | Selecting one column with `.not(column, 'is', null)` and mapping it out gives exactly the non-NULL values that column takes in the rows. |
| `PartsPage.NonEmpty` | app/parts/page.tsx:65 | `filter(Boolean)` keeps exactly the non-empty strings. It is `Strings.Compact` applied to values that are all present. |
| `PartsPage.Facet` | app/parts/page.tsx:65-66 | Dedupe, drop empties and sort give a strictly ascending list, so it has no duplicates. Its elements are exactly the non-empty input values. |
| `PartsPage.FacetUnique` | app/parts/page.tsx:65-66 | Any strictly ascending list with the facet's elements is the facet. The facet does not depend on the sorting algorithm or on the dedupe order. |
| `PartsPage.GetMakes` | app/parts/page.tsx:54-67 | A store error gives no makes. The makes are strictly ascending. A string is a make exactly when it is non-empty and some stored part has that `vehicleMake`. |
| `PartsPage.GetModels` | app/parts/page.tsx:69-88 | A store error gives no models. The models are strictly ascending. A string is a model exactly when it is non-empty and some stored part has that `vehicleModel` and, for a truthy make, that `vehicleMake`. |
| `PartsPage.ModelsForMakeAmongAllModels` | app/parts/page.tsx:69-88 | The models offered for a make are among the models offered without a make. |
| `PartsPage.ModelsForEmptyMake` | app/parts/page.tsx:75-77 | An empty make restricts nothing: the models are those offered without a make. |
| `PartsPage.GetSources` | app/parts/page.tsx:90-102 | A store error gives no sources. Otherwise the result is the store's `{id, name}` rows, as the store returns them. |
| `PartsPage.ShowingCaption` | app/parts/page.tsx:143-145 | The caption starts with "Showing ". It is exactly "Showing 1 part" for one part, and it ends in " parts" for any other count, 0 included. |
| `PartsPage.ShowingCaptionCount` | app/parts/page.tsx:144 | The numeral in the caption is all digits and reads back as the number of listed parts. |
| `Strings.Lower` | app/parts/page.tsx:41 | ASCII lower-casing keeps the length. |
| `Strings.LowerWithoutCapitals` | app/parts/page.tsx:41 | A string with no ASCII capital is its own lower-case form. |
| `Strings.LowerConcat` | app/parts/page.tsx:41 | Lower-casing distributes over concatenation. |
| `Strings.Like` | app/parts/page.tsx:40-41 | No contract of its own. It is the SQL `LIKE` matcher, where `%` matches any run and `_` matches one character. `Strings.LikeLiteralPrefix`, `Strings.LikeLeadingPercent`, `Strings.LikeTrailingPercentAny` and `Strings.LikeWrappedIsContains` state what it accepts. |
| `Strings.ILike` | app/parts/page.tsx:40-41 | No contract of its own. It is `LIKE` after ASCII lower-casing of both sides. `Strings.ILikeWrappedIsContains` states what it accepts. |
| `Strings.LikeWrappedIsContains` | app/parts/page.tsx:40-41 | For a text `q` with no special character, `s LIKE '%q%'` holds exactly when `q` occurs in `s`. |
| `Strings.ILikeWrappedIsContains` | app/parts/page.tsx:40-41 | For a text `q` with no special character, `s ILIKE '%q%'` holds exactly when `q` occurs in `s`, ignoring ASCII case. |
| `Strings.LikeLiteralPrefix` | app/parts/page.tsx:40-41 | A literal followed by `%` matches exactly the strings that start with that literal. |
| `Strings.LikeLeadingPercent` | app/parts/page.tsx:40-41 | A pattern starting with `%` matches exactly when the rest of the pattern matches some suffix. |
| `Strings.LikeTrailingPercentAny` | app/parts/page.tsx:40-41 | `%` alone matches every string. |
| `Strings.LexLessIrreflexive` | app/parts/page.tsx:66 | No string sorts strictly before itself. |
| `Strings.LexLessAsymmetric` | app/parts/page.tsx:66 | Two strings never sort strictly before each other. |
| `Strings.LexLessTransitive` | app/parts/page.tsx:66 | The sort order is transitive. |
| `Strings.LexLessTotal` | app/parts/page.tsx:66 | Any two distinct strings are ordered one way or the other. |
| `Strings.LexLeqAntisymmetric` | app/parts/page.tsx:66 | Strings that sort at or before each other are equal. |
| `Strings.Compact` | components/PartCard.tsx:23-31 | `filter(Boolean)` on optional strings: a string is in the result exactly when it is present in the input and not empty, and the result is never longer than the input. `Strings.CompactCons` and `Strings.CompactAppend` give order and multiplicity. |
| `Strings.Present` | components/PartCard.tsx:30 | What `filter(Boolean)` keeps of one element: nothing, or exactly its string when that string is present and not empty. |
| `Strings.CompactCons` | components/PartCard.tsx:30 | `filter(Boolean)` keeps the first element's string, if truthy, in front of what it keeps of the rest. |
| `Strings.CompactAppend` | components/PartCard.tsx:30 | `filter(Boolean)` of a concatenation is the concatenation of the two filtered parts, so order and multiplicity are kept. |
| `Strings.Join` | components/PartCard.tsx:31 | No contract of its own. It is `Array.prototype.join`. `Strings.JoinEmptyIff`, `PartCard.VehicleLineAllPresent` and `PartCard.LocationLine` state what it gives. |
| `Strings.JoinEmptyIff` | components/PartCard.tsx:23-31 | Joining non-empty strings gives `""` exactly when there are none. |
| `Strings.NatToString` | app/parts/page.tsx:144 | `String(n)` of a natural number is a non-empty run of digits, with no leading zero unless `n` is 0. |
| `Strings.NatToStringRoundTrip` | app/parts/page.tsx:144 | Reading the numeral back gives the number. |
| `Strings.IntToString` | components/PartCard.tsx:27-28 | `String(n)` of an integer is the shortest numeral of the absolute value of `n`, with no leading zero, after a `-` exactly when `n` is negative. It reads back as that absolute value. |
| `Sorting.Dedupe` | app/parts/page.tsx:65 | `Array.from(new Set(xs))` has no duplicates and the same elements as `xs`. |
| `Sorting.Sort` | app/parts/page.tsx:66 | No contract of its own. It is the default `sort()`. `Sorting.SortSpec` proves it gives an ascending permutation, and `Sorting.SortedUnique` shows that any sorting algorithm gives the same result. |
| `Sorting.SortSpec` | app/parts/page.tsx:66 | `sort()` gives an ascending permutation of its input. |
| `Sorting.SortedUnique` | app/parts/page.tsx:66 | Two ascending permutations of the same elements are equal. |
| `Sorting.SortDistinct` | app/parts/page.tsx:65-66 | Sorting a list without duplicates gives a strictly ascending list of the same elements. |
| `PartCard.YearText` | components/PartCard.tsx:26-28 | There is a year element exactly when the start or the end year is truthy, and that element is never empty. |
| `PartCard.YearTextReadsBack` | components/PartCard.tsx:26-28 | For unsigned years, the year element spells the years as shortest numerals, with no leading zero. A single truthy year is its numeral. Two truthy years are the start's numeral, a `-`, and the end's numeral. |
| `PartCard.YearRangeDash` | components/PartCard.tsx:26-28 | For unsigned years, the year text exists exactly when a year is truthy. It contains a dash exactly when both years are truthy, so 0 counts as absent. |
| `PartCard.YearFromAlone` | components/PartCard.tsx:26-28 | A start year of 2015 without an end year gives "2015". |
| `PartCard.YearTextTruthy` | components/PartCard.tsx:26-28 | A year element survives `filter(Boolean)` exactly when the start year or the end year is truthy. |
| `PartCard.MakeModelYear` | components/PartCard.tsx:23-31 | No contract of its own. It is `[make, model, year].filter(Boolean).join(' ')`. `PartCard.VehicleLineWords` states what it gives for every presence pattern. |
| `PartCard.VehicleLine` | components/PartCard.tsx:67 | No contract of its own. It is the render condition on the line's text. `PartCard.VehicleLineShownIff` states when it is shown. |
| `PartCard.VehicleLineShownIff` | components/PartCard.tsx:23-31 | The make/model/year line is not rendered exactly when make, model and both years are all falsy. A rendered line is never empty. |
| `PartCard.VehicleLineAllPresent` | components/PartCard.tsx:23-31 | With everything present, the line is make, model and "from-to", single-spaced, in that order. |
| `PartCard.VehicleLineMakeOnly` | components/PartCard.tsx:23-31 | A make alone is the whole line, with no stray separator. |
| `PartCard.VehicleLineWords` | components/PartCard.tsx:23-31 | The line is the truthy components among make, model and year, in that order, each once, joined by single spaces. |
| `PartCard.VehicleLineModelYear` | components/PartCard.tsx:23-31 | A model and a year without a make read "model year", as in "Corolla 2015". |
| `PartCard.CompactEmptyIff` | components/PartCard.tsx:30 | `filter(Boolean)` leaves nothing exactly when every element is falsy. |
| `PartCard.LeadingSlashes` | components/PartCard.tsx:34 | The count of `/` characters that open a string is the length of the `\/+` run there. |
| `PartCard.CollapseSlashes` | components/PartCard.tsx:34 | No contract of its own. It is the left-to-right global replace of `([^:]/)/+` by `$1`. The `Collapse…` lemmas below state its meaning. |
| `PartCard.CollapseKeepsHead` | components/PartCard.tsx:34 | Normalisation keeps the first two characters of the URL. |
| `PartCard.CollapseShrinks` | components/PartCard.tsx:34 | The normalised URL is never longer than the original. It is strictly shorter whenever a non-`:` character is followed by `//`. |
| `PartCard.CollapseUnchangedIff` | components/PartCard.tsx:34 | A URL is unchanged exactly when no non-`:` character in it is followed by `//`. |
| `PartCard.CollapseIsClean` | components/PartCard.tsx:34 | After normalisation, no non-`:` character is followed by `//`. |
| `PartCard.CollapseIdempotent` | components/PartCard.tsx:34 | Normalising twice is the same as normalising once. |
| `PartCard.CollapseKeepsOtherCharacters` | components/PartCard.tsx:34 | Normalisation deletes only `/`. The other characters stay, in order. |
| `PartCard.CollapseIsSubsequence` | components/PartCard.tsx:34 | The normalised URL is a subsequence of the original. |
| `PartCard.CollapseKeepsPrefix` | components/PartCard.tsx:34 | A prefix without `/` is kept as it is, unless its last character, a non-`:`, is followed by `//`. |
| `PartCard.CollapseRunAt` | components/PartCard.tsx:34 | A non-`:` character followed by two or more `/` keeps the character and one `/`, and scanning resumes after the run. |
| `PartCard.SchemeSeparatorKept` | components/PartCard.tsx:34 | `://` followed by a non-`/` is kept as it is, because the pattern cannot start at `:`. |
| `PartCard.CollapseRunAfterSegment` | components/PartCard.tsx:34 | A run of two or more `/` after a path segment that does not end in `:` becomes one `/`. |
| `PartCard.CollapseKeepsScheme` | components/PartCard.tsx:34 | A `://` after a scheme without `/` is left intact. |
| `PartCard.CollapseWithoutSlashes` | components/PartCard.tsx:34 | Text without `/` is left unchanged. |
| `PartCard.CollapseDoubledSeparators` | components/PartCard.tsx:33-34 | host//dir//file becomes host/dir/file. |
| `PartCard.DoubledSeparatorsExample` | components/PartCard.tsx:33-34 | "foo.com//images//x.jpg" becomes "foo.com/images/x.jpg". |
| `PartCard.NormalizedImageUrl` | components/PartCard.tsx:34 | An absent image URL stays absent. A present one becomes its slash-collapsed form, in which no doubled separator remains outside the scheme. |
| `PartCard.ShowsImage` | components/PartCard.tsx:51 | No contract of its own. It is the image block's render condition. `PartCard.ShowsImageIff` states when it holds. |
| `PartCard.ShowsImageIff` | components/PartCard.tsx:34-61 | The image block is rendered exactly when the part has a non-empty image URL. |
| `PartCard.LocationLine` | components/PartCard.tsx:77-79 | Both present gives "suburb, state". One present gives that one alone. The line is rendered exactly when suburb or state is truthy. |
| `PartCard.Card` | components/PartCard.tsx:51-81 | A card always shows the title. It shows the image exactly when the part has a non-empty image URL, with the collapsed URL as its source. It shows the vehicle line exactly when make, model or a year is truthy, and the line's text is the make/model/year text. It shows the location line exactly when suburb or state is truthy, and the line's text is the suburb/state join. A line it shows is never empty. |
| `FilterForm.Lookup` | components/FilterForm.tsx:42-45 | `get` finds a value exactly when some entry has that name, and the pair it finds is in the list. |
| `FilterForm.Without` | components/FilterForm.tsx:42-45 | Dropping a name keeps exactly the entries with other names. |
| `FilterForm.Assign` | components/FilterForm.tsx:42-45 | No contract of its own. It is `URLSearchParams.set` on the entry list. `FilterForm.AssignThenLookup`, `FilterForm.AssignKeepsOtherNames`, `FilterForm.AssignNewName` and `FilterForm.AssignKeepsKeysUnique` state its meaning. |
| `FilterForm.AssignThenLookup` | components/FilterForm.tsx:42-45 | After `set(name, v)`, `get(name)` gives `v`. |
| `FilterForm.AssignKeepsOtherNames` | components/FilterForm.tsx:42-45 | `set` leaves `get` of every other name unchanged. |
| `FilterForm.AssignNewName` | components/FilterForm.tsx:42-45 | `set` of a name not yet present appends the pair at the end. |
| `FilterForm.AssignKeepsKeysUnique` | components/FilterForm.tsx:42-45 | `set` keeps names distinct. Afterwards the names present are the old ones and the name set. |
| `FilterForm.SearchParams.Set` | components/FilterForm.tsx:42-45 | The entry list becomes the `set` result. Afterwards `get` of the name gives the value, and `get` of any other name is as before. |
| `FilterForm.SearchParams.constructor` | components/FilterForm.tsx:35 | A new `URLSearchParams` is empty. |
| `FilterForm.SetIfPresent` | components/FilterForm.tsx:42-45 | Setting a field that is not yet present appends its pair when the value is truthy, and otherwise leaves the list alone. |
| `FilterForm.SetFields` | components/FilterForm.tsx:42-45 | The four conditional `set` calls, on an empty `params` and with distinct names, leave the truthy fields in call order. |
| `FilterForm.QueryString` | components/FilterForm.tsx:47 | The serialised query is empty exactly when there are no entries. |
| `FilterForm.NavigationTarget` | components/FilterForm.tsx:47 | The target is the bare `/parts?` exactly when the query is empty. |
| `FilterForm.HandleSubmit` | components/FilterForm.tsx:30-48 | The query holds the truthy fields, unmodified, in the order q, make, model and source. Each name appears at most once and no value is empty. The query is empty, and the target is `/parts?`, exactly when every field is empty. Read back, it is the form's filter record with empty fields absent. |
| `FilterForm.SubmittedQuery` | components/FilterForm.tsx:37-47 | No contract of its own. It is the reference entry list of a submit: the truthy fields, in form order. `FilterForm.HandleSubmit` builds exactly this list, and `FilterForm.SubmittedQueryFacts` states its properties. |
| `FilterForm.ReadFilters` | app/parts/page.tsx:123-124 | No contract of its own. It is the page's read of the query into a filter record. `FilterForm.SubmitListsSameParts` and `FilterForm.HandleSubmit` state the round trip. |
| `FilterForm.SubmittedQueryFacts` | components/FilterForm.tsx:37-47 | The submitted query has unique names, non-empty values and form order. It is empty exactly when all fields are empty. Looking up each name recovers the filter record with empty fields absent. |
| `FilterForm.UniqueFourFields` | components/FilterForm.tsx:42-45 | Four single-field lists with distinct names, one after another, never repeat a name. |
| `FilterForm.LookupFourFields` | components/FilterForm.tsx:42-45 | Looking a name up in the four fields finds that field's truthy value, or nothing. |
| `FilterForm.FourFieldsInFormOrder` | components/FilterForm.tsx:42-45 | Four fields set in increasing form position stay in that order. |
| `FilterForm.SubmitListsSameParts` | components/FilterForm.tsx:37-47 | Submitting the form and reading the query back lists exactly the parts that the form's own fields select. |

## Left out

- Network and configuration are left out. This covers the Supabase client, the environment-variable check in `lib/supabase.ts`, and the PostgREST wire format. The store is a value passed in.
- `PartsPage.GetParts`: a store reply that carries neither data nor an error (`data || []` with null data) is not modelled. A reply is either rows or an error.
- The PostgREST filter-string syntax is not modelled. The search text is placed in `title.ilike.…,description.ilike.…` unescaped, so a `,`, `(` or `)` in it would change the filter's structure, and a `*` would act as a wildcard. The model treats the text as one pattern.
- `PartsPage.ListedPartsContainSearchText` and `Strings.ILikeWrappedIsContains` hold for search text without special characters (`Strings.Literal`). Such text reaches the store unchanged. The special characters are `%` and `_` (wildcards in `ILIKE`), `\` (the `LIKE` escape, which the matcher does not model), `*` (which PostgREST reads as `%`), and `,`, `(` and `)` (which structure the `or` filter). Search text containing any of them is not covered by these two lemmas.
- `Strings.Lower`: `ILIKE` case folding covers the ASCII letters A–Z only, not Unicode case folding.
- `Strings.LexLess`: `sort()` compares UTF-16 code units. Dafny characters are Unicode scalar values, so the two orders differ only for characters outside the Basic Multilingual Plane.
- `PartsPage.GetSources`: the store's ordering by name (`.order('name')`) is not modelled. The rows are taken in the order the store returns them.
- `FilterForm.QueryString`: the percent-encoding of `URLSearchParams.toString()` is not modelled. Names and values are written unencoded.
- `FilterForm.ReadFilters`: Next.js gives an array for a repeated query name. The submitted query never repeats a name, so the page's read is modelled as the first value for each name.
- The card's price (`toLocaleString` on a floating-point price), the source block and the "View on wrecker site" link are not modelled.
- React and Next.js machinery is not modelled: loading flags, `useEffect`, `router.push` itself, `Suspense`, `Button`, the layouts and the home page.
- `console.error` logging is not modelled.
- `Strings.IntToString`: years are integers, so JavaScript's number-to-string rules for fractions and for magnitudes of 1e21 and above are not needed.
- `app/parts/[id]/page.tsx` repeats the make/model/year rule of the card. It is not part of this model.

=== FILE: catalog.dfy ===
/** The records the catalogue reads from the store, and the listing's filter record. */
module Catalog {
  import opened Wrappers

  /** The error the store client reports for a failed read. */
  datatype StoreError = StoreError(message: string)

  /** What one read returns: the selected rows, or the store's error. */
  type Reply<T> = Result<seq<T>, StoreError>

  /** A parts provider, as the source list selects it: `id, name`. */
  datatype Source = Source(id: string, name: string)

  /**
   * A listed part, with the columns the listing, the facets and the part card
   * read. Nullable columns are `Option`s; `sourceId` and `title` are required.
   */
  datatype Part = Part(
    id: string,
    sourceId: string,
    title: string,
    description: Option<string>,
    vehicleMake: Option<string>,
    vehicleModel: Option<string>,
    yearFrom: Option<int>,
    yearTo: Option<int>,
    imageUrl: Option<string>,
    locationSuburb: Option<string>,
    locationState: Option<string>)

  /** The parts page's query parameters: every one may be missing. */
  datatype Filters = Filters(
    make: Option<string>,
    model: Option<string>,
    source: Option<string>,
    q: Option<string>)

  /** JavaScript truthiness of an optional string: present and not "". */
  predicate Truthy(s: Option<string>) {
    s.Some? && s.value != ""
  }

  /** JavaScript truthiness of an optional integer: present and not 0. */
  predicate TruthyNumber(n: Option<int>) {
    n.Some? && n.value != 0
  }
}

=== FILE: filter_form.dfy ===
/**
 * The filter form's submit handler: it reads the four fields, writes each
 * non-empty one into a fresh `URLSearchParams` with `set`, and navigates to
 * the parts page with that query string.
 */
module FilterForm {
  import opened Wrappers
  import opened Strings
  import opened Catalog
  import opened PartsPage

  /** One name/value pair of a query string. */
  type Entry = (string, string)

  /** Some entry is named `name`. */
  predicate HasKey(entries: seq<Entry>, name: string) {
    exists i | 0 <= i < |entries| :: entries[i].0 == name
  }

  /** No two entries share a name. */
  predicate UniqueKeys(entries: seq<Entry>) {
    forall i, j | 0 <= i < j < |entries| :: entries[i].0 != entries[j].0
  }

  /** The entries not named `name`, in order. */
  function Without(entries: seq<Entry>, name: string): (r: seq<Entry>)
    ensures !HasKey(r, name)
    ensures forall e :: e in r <==> e in entries && e.0 != name
  {
    if entries == [] then []
    else (if entries[0].0 == name then [] else [entries[0]]) + Without(entries[1..], name)
  }

  /**
   * `URLSearchParams.set(name, value)`: the first entry named `name` takes the
   * new value and every later one is removed; with no such entry, the pair is
   * appended.
   */
  function Assign(entries: seq<Entry>, name: string, value: string): seq<Entry> {
    if entries == [] then [(name, value)]
    else if entries[0].0 == name then [(name, value)] + Without(entries[1..], name)
    else [entries[0]] + Assign(entries[1..], name, value)
  }

  /** `URLSearchParams.get(name)`: the value of the first entry named `name`. */
  function Lookup(entries: seq<Entry>, name: string): (r: Option<string>)
    ensures r.None? <==> !HasKey(entries, name)
    ensures r.Some? ==> (name, r.value) in entries
  {
    if entries == [] then None
    else if entries[0].0 == name then Some(entries[0].1)
    else Lookup(entries[1..], name)
  }

  lemma {:induction false} LookupWithout(entries: seq<Entry>, name: string, other: string)
    requires other != name
    ensures Lookup(Without(entries, name), other) == Lookup(entries, other)
    decreases |entries|
  {
    if entries != [] {
      LookupWithout(entries[1..], name, other);
      var w := Without(entries, name);
      if entries[0].0 != name {
        assert w == [entries[0]] + Without(entries[1..], name);
        assert w[1..] == Without(entries[1..], name);
      } else {
        assert w == Without(entries[1..], name);
      }
    }
  }

  /** After `set`, `get` of that name gives the value just set. */
  lemma {:induction false} AssignThenLookup(entries: seq<Entry>, name: string, value: string)
    ensures Lookup(Assign(entries, name, value), name) == Some(value)
    decreases |entries|
  {
    if entries != [] && entries[0].0 != name {
      AssignThenLookup(entries[1..], name, value);
    }
  }

  /** `set` leaves what `get` returns for every other name as it was. */
  lemma {:induction false} AssignKeepsOtherNames(entries: seq<Entry>, name: string, value: string, other: string)
    requires other != name
    ensures Lookup(Assign(entries, name, value), other) == Lookup(entries, other)
    decreases |entries|
  {
    if entries == [] {
    } else if entries[0].0 == name {
      var r := Assign(entries, name, value);
      assert r[1..] == Without(entries[1..], name);
      LookupWithout(entries[1..], name, other);
    } else {
      var r := Assign(entries, name, value);
      assert r[1..] == Assign(entries[1..], name, value);
      AssignKeepsOtherNames(entries[1..], name, value, other);
    }
  }

  /** Setting a name that is not there appends the pair at the end. */
  lemma {:induction false} AssignNewName(entries: seq<Entry>, name: string, value: string)
    requires !HasKey(entries, name)
    ensures Assign(entries, name, value) == entries + [(name, value)]
    decreases |entries|
  {
    if entries != [] {
      HasKeyCons(entries[0], entries[1..], name);
      assert entries == [entries[0]] + entries[1..];
      AssignNewName(entries[1..], name, value);
      assert entries == [entries[0]] + entries[1..];
    }
  }

  lemma HasKeyCons(e: Entry, t: seq<Entry>, k: string)
    ensures HasKey([e] + t, k) <==> e.0 == k || HasKey(t, k)
  {
    var s := [e] + t;
    if HasKey(t, k) {
      var i :| 0 <= i < |t| && t[i].0 == k;
      assert s[i + 1] == t[i];
    }
    if HasKey(s, k) && e.0 != k {
      var i :| 0 <= i < |s| && s[i].0 == k;
      assert t[i - 1] == s[i];
    }
    assert s[0] == e;
  }

  lemma UniqueCons(e: Entry, t: seq<Entry>)
    ensures UniqueKeys([e] + t) <==> UniqueKeys(t) && !HasKey(t, e.0)
  {
    var s := [e] + t;
    assert s[0] == e;
    if UniqueKeys(s) {
      forall i | 0 <= i < |t| ensures t[i].0 != e.0 {
        assert s[i + 1] == t[i];
      }
      forall i, j | 0 <= i < j < |t| ensures t[i].0 != t[j].0 {
        assert t[i] == s[i + 1] && t[j] == s[j + 1];
      }
    }
    if UniqueKeys(t) && !HasKey(t, e.0) {
      forall i, j | 0 <= i < j < |s| ensures s[i].0 != s[j].0 {
        if i == 0 {
          assert s[j] == t[j - 1];
        } else {
          assert s[i] == t[i - 1] && s[j] == t[j - 1];
        }
      }
    }
  }

  lemma {:induction false} HasKeyWithout(entries: seq<Entry>, name: string, k: string)
    ensures HasKey(Without(entries, name), k) <==> HasKey(entries, k) && k != name
    decreases |entries|
  {
    if entries != [] {
      var t := entries[1..];
      HasKeyWithout(t, name, k);
      HasKeyCons(entries[0], t, k);
      assert entries == [entries[0]] + t;
      if entries[0].0 != name {
        HasKeyCons(entries[0], Without(t, name), k);
      } else {
        assert Without(entries, name) == [] + Without(t, name);
      }
    }
  }

  lemma {:induction false} UniqueWithout(entries: seq<Entry>, name: string)
    requires UniqueKeys(entries)
    ensures UniqueKeys(Without(entries, name))
    decreases |entries|
  {
    if entries != [] {
      var t := entries[1..];
      assert entries == [entries[0]] + t;
      UniqueCons(entries[0], t);
      UniqueWithout(t, name);
      if entries[0].0 != name {
        HasKeyWithout(t, name, entries[0].0);
        UniqueCons(entries[0], Without(t, name));
      } else {
        assert Without(entries, name) == [] + Without(t, name);
      }
    }
  }

  /** `set` keeps names distinct, and afterwards the names present are the old ones and `name`. */
  lemma {:induction false} AssignKeepsKeysUnique(entries: seq<Entry>, name: string, value: string)
    requires UniqueKeys(entries)
    ensures UniqueKeys(Assign(entries, name, value))
    ensures forall k :: HasKey(Assign(entries, name, value), k) <==> HasKey(entries, k) || k == name
    decreases |entries|
  {
    var r := Assign(entries, name, value);
    if entries == [] {
      forall k ensures HasKey(r, k) <==> k == name {
        HasKeyCons((name, value), [], k);
        assert r == [(name, value)] + [];
      }
    } else {
      var t := entries[1..];
      assert entries == [entries[0]] + t;
      UniqueCons(entries[0], t);
      if entries[0].0 == name {
        var w := Without(t, name);
        assert r == [(name, value)] + w;
        UniqueWithout(t, name);
        HasKeyWithout(t, name, name);
        UniqueCons((name, value), w);
        forall k ensures HasKey(r, k) <==> HasKey(entries, k) || k == name {
          HasKeyCons((name, value), w, k);
          HasKeyCons(entries[0], t, k);
          HasKeyWithout(t, name, k);
        }
      } else {
        AssignKeepsKeysUnique(t, name, value);
        var a := Assign(t, name, value);
        assert r == [entries[0]] + a;
        UniqueCons(entries[0], a);
        forall k ensures HasKey(r, k) <==> HasKey(entries, k) || k == name {
          HasKeyCons(entries[0], t, k);
          HasKeyCons(entries[0], a, k);
        }
      }
    }
  }

  // ---------------------------------------------------------------------------
  // The query string object
  // ---------------------------------------------------------------------------

  /** `new URLSearchParams()`: an ordered list of name/value pairs. */
  class SearchParams {
    var entries: seq<Entry>

    constructor()
      ensures entries == []
    {
      entries := [];
    }

    /** `params.get(name)`. */
    function Get(name: string): Option<string>
      reads this
    {
      Lookup(entries, name)
    }

    /** `params.set(name, value)`. */
    method Set(name: string, value: string)
      modifies this
      ensures entries == Assign(old(entries), name, value)
      ensures Get(name) == Some(value)
      ensures forall other | other != name :: Get(other) == old(Get(other))
    {
      AssignThenLookup(entries, name, value);
      forall other | other != name ensures Lookup(Assign(entries, name, value), other) == Lookup(entries, other) {
        AssignKeepsOtherNames(entries, name, value, other);
      }
      entries := Assign(entries, name, value);
    }
  }

  // ---------------------------------------------------------------------------
  // Submitting the form
  // ---------------------------------------------------------------------------

  /** What `formData.get` returns for the four fields; a missing field is `null`. */
  datatype FormFields = FormFields(
    q: Option<string>,
    make: Option<string>,
    model: Option<string>,
    source: Option<string>)

  /** The fields as the parts page's filter record. */
  function AsFilters(form: FormFields): Filters {
    Filters(form.make, form.model, form.source, form.q)
  }

  /** How the parts page reads a query string back into its filters. */
  function ReadFilters(query: seq<Entry>): Filters {
    Filters(Lookup(query, "make"), Lookup(query, "model"), Lookup(query, "source"), Lookup(query, "q"))
  }

  /** The pair for a field when it is truthy, nothing otherwise. */
  function Field(name: string, value: Option<string>): seq<Entry> {
    if Truthy(value) then [(name, value.value)] else []
  }

  /** The query the handler builds: the truthy fields in the order q, make, model, source. */
  function SubmittedQuery(form: FormFields): seq<Entry> {
    Field("q", form.q) + Field("make", form.make) + Field("model", form.model) + Field("source", form.source)
  }

  /** `if (value) params.set(name, value)` for a name not yet in `params`. */
  method SetIfPresent(params: SearchParams, name: string, value: Option<string>)
    requires !HasKey(params.entries, name)
    modifies params
    ensures params.entries == old(params.entries) + Field(name, value)
  {
    if Truthy(value) {
      AssignNewName(params.entries, name, value.value);
      params.Set(name, value.value);
    }
  }

  /** The position of a parameter in the form: q, make, model, source. */
  function ParamRank(name: string): nat {
    if name == "q" then 0 else if name == "make" then 1 else if name == "model" then 2 else 3
  }

  /** Names in strictly increasing form position. */
  predicate InFormOrder(entries: seq<Entry>) {
    forall i, j | 0 <= i < j < |entries| :: ParamRank(entries[i].0) < ParamRank(entries[j].0)
  }

  /** `name=value` pairs joined by `&`, as `params.toString()` writes them before percent-encoding. */
  function QueryString(entries: seq<Entry>): (r: string)
    ensures r == "" <==> entries == []
  {
    var pairs := seq(|entries|, i requires 0 <= i < |entries| => entries[i].0 + "=" + entries[i].1);
    assert forall s :: s in pairs ==> s != "" by {
      forall s | s in pairs ensures s != "" {
        var i :| 0 <= i < |pairs| && pairs[i] == s;
        assert |s| >= 1;
      }
    }
    JoinEmptyIff(pairs, "&");
    Join(pairs, "&")
  }

  /** The address `router.push` is given: the parts page with the query string. */
  function NavigationTarget(query: seq<Entry>): (target: string)
    ensures target == "/parts?" <==> query == []
  {
    AppendUnchangedIff("/parts?", QueryString(query));
    "/parts?" + QueryString(query)
  }

  /**
   * `e.preventDefault()` aside, the submit handler up to `router.push`: the
   * query it builds and the address it navigates to.
   */
  method HandleSubmit(form: FormFields) returns (query: seq<Entry>, target: string)
    ensures query == SubmittedQuery(form)
    ensures UniqueKeys(query)
    ensures InFormOrder(query)
    ensures forall i | 0 <= i < |query| :: query[i].1 != ""
    ensures query == [] <==> !Truthy(form.q) && !Truthy(form.make) && !Truthy(form.model) && !Truthy(form.source)
    ensures ReadFilters(query) == DropEmptyFields(AsFilters(form))
    ensures target == NavigationTarget(query)
    ensures target == "/parts?" <==>
      !Truthy(form.q) && !Truthy(form.make) && !Truthy(form.model) && !Truthy(form.source)
  {
    var params := new SearchParams();
    SetFields(params, "q", form.q, "make", form.make, "model", form.model, "source", form.source);
    query := params.entries;
    target := NavigationTarget(query);
    SubmittedQueryFacts(form);
  }

  /** The four `if (value) params.set(name, value)` statements, in order, on an empty `params`. */
  method SetFields(params: SearchParams, a: string, va: Option<string>, b: string, vb: Option<string>,
                   c: string, vc: Option<string>, d: string, vd: Option<string>)
    requires params.entries == []
    requires a != b && a != c && a != d && b != c && b != d && c != d
    modifies params
    ensures params.entries == Field(a, va) + Field(b, vb) + Field(c, vc) + Field(d, vd)
  {
    var fa, fb, fc := Field(a, va), Field(b, vb), Field(c, vc);
    SetIfPresent(params, a, va);
    FieldHasKey(a, va, b);
    SetIfPresent(params, b, vb);
    FieldHasKey(a, va, c);
    FieldHasKey(b, vb, c);
    HasKeyAppend(fa, fb, c);
    SetIfPresent(params, c, vc);
    FieldHasKey(a, va, d);
    FieldHasKey(b, vb, d);
    FieldHasKey(c, vc, d);
    HasKeyAppend(fa, fb, d);
    HasKeyAppend(fa + fb, fc, d);
    SetIfPresent(params, d, vd);
  }

  lemma AppendUnchangedIff(prefix: string, rest: string)
    ensures prefix + rest == prefix <==> rest == []
  {
    assert |prefix + rest| == |prefix| + |rest|;
  }

  lemma {:induction false} LookupAppend(x: seq<Entry>, y: seq<Entry>, name: string)
    ensures Lookup(x + y, name) == if HasKey(x, name) then Lookup(x, name) else Lookup(y, name)
    decreases |x|
  {
    if x != [] {
      assert (x + y)[1..] == x[1..] + y;
      LookupAppend(x[1..], y, name);
      HasKeyCons(x[0], x[1..], name);
      assert x == [x[0]] + x[1..];
    } else {
      assert x + y == y;
    }
  }

  /** Appending a field whose name is new keeps names distinct. */
  lemma UniqueAppendField(x: seq<Entry>, name: string, value: Option<string>)
    requires UniqueKeys(x) && !HasKey(x, name)
    ensures UniqueKeys(x + Field(name, value))
  {
    var s := x + Field(name, value);
    forall i, j | 0 <= i < j < |s| ensures s[i].0 != s[j].0 {
      if j >= |x| {
        assert s[j].0 == name;
        assert s[i] == x[i];
      } else {
        assert s[i] == x[i] && s[j] == x[j];
      }
    }
  }

  /** Four single-field queries with distinct names, one after another, name each field at most once. */
  lemma UniqueFourFields(a: string, va: Option<string>, b: string, vb: Option<string>,
                         c: string, vc: Option<string>, d: string, vd: Option<string>)
    requires a != b && a != c && a != d && b != c && b != d && c != d
    ensures UniqueKeys(Field(a, va) + Field(b, vb) + Field(c, vc) + Field(d, vd))
  {
    var fa, fb, fc := Field(a, va), Field(b, vb), Field(c, vc);
    FieldHasKey(a, va, b);
    UniqueAppendField(fa, b, vb);
    FieldHasKey(a, va, c);
    FieldHasKey(b, vb, c);
    HasKeyAppend(fa, fb, c);
    UniqueAppendField(fa + fb, c, vc);
    FieldHasKey(a, va, d);
    FieldHasKey(b, vb, d);
    FieldHasKey(c, vc, d);
    HasKeyAppend(fa, fb, d);
    HasKeyAppend(fa + fb, fc, d);
    UniqueAppendField(fa + fb + fc, d, vd);
  }

  /** `get` on four queries one after another: the first of them that has the name answers. */
  lemma LookupFour(fa: seq<Entry>, fb: seq<Entry>, fc: seq<Entry>, fd: seq<Entry>, n: string)
    ensures Lookup(fa + fb + fc + fd, n) ==
      if HasKey(fa, n) then Lookup(fa, n)
      else if HasKey(fb, n) then Lookup(fb, n)
      else if HasKey(fc, n) then Lookup(fc, n)
      else Lookup(fd, n)
  {
    LookupAppend(fa + fb + fc, fd, n);
    LookupAppend(fa + fb, fc, n);
    LookupAppend(fa, fb, n);
    HasKeyAppend(fa + fb, fc, n);
    HasKeyAppend(fa, fb, n);
  }

  /** Reading a name back from four single-field queries with distinct names finds that field's value. */
  lemma LookupFourFields(a: string, va: Option<string>, b: string, vb: Option<string>,
                         c: string, vc: Option<string>, d: string, vd: Option<string>, n: string)
    requires a != b && a != c && a != d && b != c && b != d && c != d
    ensures Lookup(Field(a, va) + Field(b, vb) + Field(c, vc) + Field(d, vd), n) ==
      if n == a && Truthy(va) then va
      else if n == b && Truthy(vb) then vb
      else if n == c && Truthy(vc) then vc
      else if n == d && Truthy(vd) then vd
      else None
  {
    LookupFour(Field(a, va), Field(b, vb), Field(c, vc), Field(d, vd), n);
    FieldHasKey(a, va, n);
    FieldHasKey(b, vb, n);
    FieldHasKey(c, vc, n);
    FieldHasKey(d, vd, n);
  }

  lemma FieldHasKey(name: string, value: Option<string>, k: string)
    ensures HasKey(Field(name, value), k) <==> k == name && Truthy(value)
    ensures Lookup(Field(name, value), k) == if k == name && Truthy(value) then value else None
  {
    if Truthy(value) {
      assert Field(name, value)[0].0 == name;
    }
  }

  lemma HasKeyAppend(x: seq<Entry>, y: seq<Entry>, k: string)
    ensures HasKey(x + y, k) <==> HasKey(x, k) || HasKey(y, k)
  {
    var s := x + y;
    if HasKey(x, k) {
      var i :| 0 <= i < |x| && x[i].0 == k;
      assert s[i] == x[i];
    }
    if HasKey(y, k) {
      var i :| 0 <= i < |y| && y[i].0 == k;
      assert s[|x| + i] == y[i];
    }
    if HasKey(s, k) {
      var i :| 0 <= i < |s| && s[i].0 == k;
      if i < |x| {
        assert s[i] == x[i];
      } else {
        assert s[i] == y[i - |x|];
      }
    }
  }

  /** The submitted query names each field at most once, with a non-empty value, and reads back as the form's filters. */
  lemma SubmittedQueryFacts(form: FormFields)
    ensures UniqueKeys(SubmittedQuery(form))
    ensures forall i | 0 <= i < |SubmittedQuery(form)| :: SubmittedQuery(form)[i].1 != ""
    ensures SubmittedQuery(form) == [] <==>
      !Truthy(form.q) && !Truthy(form.make) && !Truthy(form.model) && !Truthy(form.source)
    ensures ReadFilters(SubmittedQuery(form)) == DropEmptyFields(AsFilters(form))
    ensures InFormOrder(SubmittedQuery(form))
  {
    FourFieldsInFormOrder("q", form.q, "make", form.make, "model", form.model, "source", form.source);
    LookupFourFields("q", form.q, "make", form.make, "model", form.model, "source", form.source, "q");
    LookupFourFields("q", form.q, "make", form.make, "model", form.model, "source", form.source, "make");
    LookupFourFields("q", form.q, "make", form.make, "model", form.model, "source", form.source, "model");
    LookupFourFields("q", form.q, "make", form.make, "model", form.model, "source", form.source, "source");
    UniqueFourFields("q", form.q, "make", form.make, "model", form.model, "source", form.source);
  }

  /** Every entry's name comes before form position `bound`. */
  predicate RanksBelow(entries: seq<Entry>, bound: nat) {
    forall i | 0 <= i < |entries| :: ParamRank(entries[i].0) < bound
  }

  /** Appending a field that comes later in the form than every entry keeps the form order. */
  lemma OrderedAppendField(x: seq<Entry>, name: string, value: Option<string>, next: nat)
    requires InFormOrder(x) && RanksBelow(x, ParamRank(name))
    requires ParamRank(name) < next
    ensures InFormOrder(x + Field(name, value))
    ensures RanksBelow(x + Field(name, value), next)
  {
    var s := x + Field(name, value);
    forall i, j | 0 <= i < j < |s| ensures ParamRank(s[i].0) < ParamRank(s[j].0) {
      if j >= |x| {
        assert s[j].0 == name && s[i] == x[i];
      } else {
        assert s[i] == x[i] && s[j] == x[j];
      }
    }
    forall i | 0 <= i < |s| ensures ParamRank(s[i].0) < next {
      if i >= |x| {
        assert s[i].0 == name;
      } else {
        assert s[i] == x[i];
      }
    }
  }

  /** Four single-field queries whose names come later and later in the form are in form order. */
  lemma FourFieldsInFormOrder(a: string, va: Option<string>, b: string, vb: Option<string>,
                              c: string, vc: Option<string>, d: string, vd: Option<string>)
    requires ParamRank(a) < ParamRank(b) < ParamRank(c) < ParamRank(d)
    ensures InFormOrder(Field(a, va) + Field(b, vb) + Field(c, vc) + Field(d, vd))
  {
    var fa, fb, fc := Field(a, va), Field(b, vb), Field(c, vc);
    OrderedAppendField([], a, va, ParamRank(b));
    assert [] + fa == fa;
    OrderedAppendField(fa, b, vb, ParamRank(c));
    OrderedAppendField(fa + fb, c, vc, ParamRank(d));
    OrderedAppendField(fa + fb + fc, d, vd, ParamRank(d) + 1);
  }

  /** Submitting the form lists exactly the parts its fields select, empty fields and all. */
  lemma SubmitListsSameParts(rows: seq<Part>, form: FormFields)
    ensures Listing(rows, ReadFilters(SubmittedQuery(form))) == Listing(rows, AsFilters(form))
  {
    SubmittedQueryFacts(form);
    EmptyFieldIsAbsent(rows, AsFilters(form));
  }
}

=== FILE: part_card.dfy ===
/**
 * The text a part card shows: the make/model/year line, the image URL with
 * doubled path separators collapsed, and the suburb/state location.
 */
module PartCard {
  import opened Wrappers
  import opened Strings
  import opened Catalog

  // ---------------------------------------------------------------------------
  // The make / model / year line
  // ---------------------------------------------------------------------------

  /**
   * The year element: "from-to" when both bounds are truthy, otherwise the
   * one truthy bound, otherwise nothing (0 counts as absent).
   */
  function YearText(yearFrom: Option<int>, yearTo: Option<int>): (r: Option<string>)
    ensures r.Some? <==> TruthyNumber(yearFrom) || TruthyNumber(yearTo)
    ensures r.Some? ==> r.value != ""
  {
    if TruthyNumber(yearFrom) && TruthyNumber(yearTo) then
      Some(IntToString(yearFrom.value) + "-" + IntToString(yearTo.value))
    else if TruthyNumber(yearFrom) then Some(IntToString(yearFrom.value))
    else if TruthyNumber(yearTo) then Some(IntToString(yearTo.value))
    else None
  }

  /** `[make, model, year].filter(Boolean).join(' ')`. */
  function MakeModelYear(p: Part): string {
    Join(Compact([p.vehicleMake, p.vehicleModel, YearText(p.yearFrom, p.yearTo)]), " ")
  }

  /** The line under the title, shown only when its text is not empty. */
  function VehicleLine(p: Part): Option<string> {
    var text := MakeModelYear(p);
    if text != "" then Some(text) else None
  }

  /**
   * For years written without a sign, the year text has a dash exactly when
   * both bounds are given, and there is a year text exactly when one is.
   */
  lemma YearRangeDash(yearFrom: Option<int>, yearTo: Option<int>)
    requires yearFrom.Some? ==> yearFrom.value >= 0
    requires yearTo.Some? ==> yearTo.value >= 0
    ensures YearText(yearFrom, yearTo).Some? <==> TruthyNumber(yearFrom) || TruthyNumber(yearTo)
    ensures YearText(yearFrom, yearTo).Some? ==>
      ('-' in YearText(yearFrom, yearTo).value <==> TruthyNumber(yearFrom) && TruthyNumber(yearTo))
  {
    var t := YearText(yearFrom, yearTo);
    if TruthyNumber(yearFrom) && TruthyNumber(yearTo) {
      var a := IntToString(yearFrom.value);
      assert t.value[|a|] == '-';
    } else if t.Some? {
      var n := if TruthyNumber(yearFrom) then yearFrom.value else yearTo.value;
      assert t.value == IntToString(n);
    }
  }

  /**
   * For years written without a sign, the year text spells the years: a
   * single truthy year is its numeral, and two are the numeral of the start,
   * a dash, and the numeral of the end.
   */
  lemma YearTextReadsBack(yearFrom: Option<int>, yearTo: Option<int>)
    requires yearFrom.Some? ==> yearFrom.value >= 0
    requires yearTo.Some? ==> yearTo.value >= 0
    ensures TruthyNumber(yearFrom) && TruthyNumber(yearTo) ==>
      var t := YearText(yearFrom, yearTo).value;
      exists k :: 0 < k < |t| && t[k] == '-' && Numeral(t[..k], yearFrom.value) && Numeral(t[k + 1..], yearTo.value)
    ensures TruthyNumber(yearFrom) && !TruthyNumber(yearTo) ==>
      Numeral(YearText(yearFrom, yearTo).value, yearFrom.value)
    ensures !TruthyNumber(yearFrom) && TruthyNumber(yearTo) ==>
      Numeral(YearText(yearFrom, yearTo).value, yearTo.value)
  {
    if TruthyNumber(yearFrom) && TruthyNumber(yearTo) {
      var a := IntToString(yearFrom.value);
      var b := IntToString(yearTo.value);
      var t := YearText(yearFrom, yearTo).value;
      assert t == a + "-" + b;
      var k := |a|;
      assert t[..k] == a && t[k] == '-' && t[k + 1..] == b;
    }
  }

  /** A year range with only a start shows that year alone: 2015 and no end gives "2015". */
  lemma YearFromAlone()
    ensures YearText(Some(2015), None) == Some("2015")
  {
    assert DigitChar(2) == '2' && DigitChar(0) == '0' && DigitChar(1) == '1' && DigitChar(5) == '5';
    assert NatToString(2) == "2";
    assert NatToString(20) == NatToString(2) + [DigitChar(0)] == "20";
    assert NatToString(201) == NatToString(20) + [DigitChar(1)] == "201";
    assert NatToString(2015) == NatToString(201) + [DigitChar(5)] == "2015";
  }

  lemma JoinPair(a: string, b: string, sep: string)
    ensures Join([a, b], sep) == a + sep + b
  {
    assert [a, b][1..] == [b];
  }

  lemma JoinPresentPair(x: Option<string>, y: Option<string>, sep: string)
    ensures Truthy(x) && Truthy(y) ==> Join(Compact([x, y]), sep) == x.value + sep + y.value
  {
    if Truthy(x) && Truthy(y) {
      CompactCons(y, []);
      CompactCons(x, [y]);
      assert [x, y] == [x] + [y];
      JoinPair(x.value, y.value, sep);
    }
  }

  lemma CompactEmptyIff(xs: seq<Option<string>>)
    ensures Compact(xs) == [] <==> forall i :: 0 <= i < |xs| ==> !Truthy(xs[i])
  {
    if xs != [] {
      CompactEmptyIff(xs[1..]);
      if Truthy(xs[0]) {
        assert Compact(xs)[0] == xs[0].value;
      } else {
        forall i | 1 <= i < |xs| ensures xs[i] == xs[1..][i - 1] {}
      }
    }
  }

  /** The line is empty, and so not shown, exactly when make, model and both years are all absent. */
  lemma VehicleLineShownIff(p: Part)
    ensures VehicleLine(p).None? <==>
      !Truthy(p.vehicleMake) && !Truthy(p.vehicleModel) && !TruthyNumber(p.yearFrom) && !TruthyNumber(p.yearTo)
    ensures VehicleLine(p).Some? ==> VehicleLine(p).value != ""
  {
    var parts := [p.vehicleMake, p.vehicleModel, YearText(p.yearFrom, p.yearTo)];
    JoinEmptyIff(Compact(parts), " ");
    CompactEmptyIff(parts);
    YearTextTruthy(p.yearFrom, p.yearTo);
    assert (forall i :: 0 <= i < |parts| ==> !Truthy(parts[i])) <==>
      !Truthy(parts[0]) && !Truthy(parts[1]) && !Truthy(parts[2]);
  }

  /** There is a year text, and it is not empty, exactly when a year is truthy. */
  lemma YearTextTruthy(yearFrom: Option<int>, yearTo: Option<int>)
    ensures Truthy(YearText(yearFrom, yearTo)) <==> TruthyNumber(yearFrom) || TruthyNumber(yearTo)
  {
  }

  /** With every component present the line is "make model from-to", single-spaced, in that order. */
  lemma VehicleLineAllPresent(p: Part)
    requires Truthy(p.vehicleMake) && Truthy(p.vehicleModel)
    requires TruthyNumber(p.yearFrom) && TruthyNumber(p.yearTo)
    ensures MakeModelYear(p) ==
      p.vehicleMake.value + " " + p.vehicleModel.value + " "
      + IntToString(p.yearFrom.value) + "-" + IntToString(p.yearTo.value)
  {
    var year := IntToString(p.yearFrom.value) + "-" + IntToString(p.yearTo.value);
    assert YearText(p.yearFrom, p.yearTo) == Some(year);
    JoinPresentTriple(p.vehicleMake, p.vehicleModel, Some(year), " ");
  }

  lemma JoinPresentTriple(x: Option<string>, y: Option<string>, z: Option<string>, sep: string)
    requires Truthy(x) && Truthy(y) && Truthy(z)
    ensures Join(Compact([x, y, z]), sep) == x.value + sep + y.value + sep + z.value
  {
    var words := [x.value, y.value, z.value];
    assert Compact([y, z]) == [y.value, z.value] by {
      CompactCons(z, []);
      CompactCons(y, [z]);
      assert [y, z] == [y] + [z];
    }
    assert Compact([x, y, z]) == words by {
      CompactCons(x, [y, z]);
      assert [x, y, z] == [x] + [y, z];
    }
    JoinTriple(x.value, y.value, z.value, sep);
  }

  lemma JoinTriple(a: string, b: string, c: string, sep: string)
    ensures Join([a, b, c], sep) == a + sep + b + sep + c
  {
    JoinPair(b, c, sep);
    assert [a, b, c][1..] == [b, c];
  }

  /** A make alone, with no model and no year, is the whole line. */
  lemma VehicleLineMakeOnly(p: Part)
    requires Truthy(p.vehicleMake) && !Truthy(p.vehicleModel)
    requires !TruthyNumber(p.yearFrom) && !TruthyNumber(p.yearTo)
    ensures VehicleLine(p) == Some(p.vehicleMake.value)
  {
    CompactCons(None, []);
    CompactCons(p.vehicleModel, [None]);
    CompactCons(p.vehicleMake, [p.vehicleModel, None]);
    assert [p.vehicleMake, p.vehicleModel, None] == [p.vehicleMake] + [p.vehicleModel, None];
    assert [p.vehicleModel, None] == [p.vehicleModel] + [None];
    assert Compact([p.vehicleMake, p.vehicleModel, None]) == [p.vehicleMake.value];
  }

  /**
   * The line is the truthy components among make, model and year, in that
   * order, each once, joined by single spaces.
   */
  lemma VehicleLineWords(p: Part)
    ensures MakeModelYear(p) ==
      Join(Present(p.vehicleMake) + Present(p.vehicleModel) + Present(YearText(p.yearFrom, p.yearTo)), " ")
  {
    var make, model, year := p.vehicleMake, p.vehicleModel, YearText(p.yearFrom, p.yearTo);
    assert Compact([year]) == Present(year) by {
      CompactCons(year, []);
      assert [year] == [year] + [];
    }
    assert Compact([model, year]) == Present(model) + Present(year) by {
      CompactCons(model, [year]);
      assert [model, year] == [model] + [year];
    }
    assert Compact([make, model, year]) == Present(make) + Present(model) + Present(year) by {
      CompactCons(make, [model, year]);
      assert [make, model, year] == [make] + [model, year];
    }
  }

  /** A model and a year without a make read "model year", as in "Corolla 2015". */
  lemma VehicleLineModelYear(p: Part)
    requires !Truthy(p.vehicleMake) && Truthy(p.vehicleModel)
    requires TruthyNumber(p.yearFrom) || TruthyNumber(p.yearTo)
    ensures MakeModelYear(p) == p.vehicleModel.value + " " + YearText(p.yearFrom, p.yearTo).value
  {
    VehicleLineWords(p);
    assert Present(p.vehicleMake) + Present(p.vehicleModel) + Present(YearText(p.yearFrom, p.yearTo))
      == [p.vehicleModel.value, YearText(p.yearFrom, p.yearTo).value];
    JoinPair(p.vehicleModel.value, YearText(p.yearFrom, p.yearTo).value, " ");
  }

  // ---------------------------------------------------------------------------
  // Image URL normalisation: `replace(/([^:]\/)\/+/g, '$1')`
  // ---------------------------------------------------------------------------

  /** The number of `/` characters that open `s`. */
  function LeadingSlashes(s: string): (k: nat)
    ensures k <= |s|
    ensures forall i :: 0 <= i < k ==> s[i] == '/'
    ensures k < |s| ==> s[k] != '/'
  {
    if s != [] && s[0] == '/' then 1 + LeadingSlashes(s[1..]) else 0
  }

  /** The pattern `[^:]\/\/+` matches at index `i`: a non-colon, then at least two `/`. */
  predicate CollapsesAt(s: string, i: int) {
    0 <= i && i + 2 < |s| && s[i] != ':' && s[i + 1] == '/' && s[i + 2] == '/'
  }

  /** No match of the pattern anywhere: nothing left to collapse. */
  predicate Clean(s: string) {
    forall i | 0 <= i < |s| :: !CollapsesAt(s, i)
  }

  /**
   * The global replacement, left to right: at the first index where the
   * pattern matches, keep the character and one `/`, drop the rest of the
   * run of `/`, and resume after the match; elsewhere keep the character.
   */
  function CollapseSlashes(s: string): string
    decreases |s|
  {
    if CollapsesAt(s, 0) then s[..2] + CollapseSlashes(s[2 + LeadingSlashes(s[2..])..])
    else if s == [] then []
    else [s[0]] + CollapseSlashes(s[1..])
  }

  /**
   * `part.imageUrl?.replace(...)`: an absent URL stays absent, and a present
   * one is collapsed, leaving no doubled separator outside a scheme.
   */
  function NormalizedImageUrl(url: Option<string>): (r: Option<string>)
    ensures r.None? <==> url.None?
    ensures url.Some? ==> r == Some(CollapseSlashes(url.value))
    ensures r.Some? ==> Clean(r.value)
  {
    match url
    case None => None
    case Some(u) => CollapseIsClean(u); Some(CollapseSlashes(u))
  }

  /** The image block is rendered when the normalised URL is truthy. */
  predicate ShowsImage(p: Part) {
    Truthy(NormalizedImageUrl(p.imageUrl))
  }

  lemma CollapsesAtTail(s: string, i: int)
    requires s != [] && 0 <= i
    ensures CollapsesAt(s[1..], i) <==> CollapsesAt(s, i + 1)
  {
  }

  /** Collapsing keeps the first two characters. */
  lemma {:induction false} CollapseKeepsHead(s: string)
    ensures |CollapseSlashes(s)| >= (if |s| < 2 then |s| else 2)
    ensures |s| >= 1 ==> CollapseSlashes(s)[0] == s[0]
    ensures |s| >= 2 ==> CollapseSlashes(s)[1] == s[1]
    decreases |s|
  {
    if !CollapsesAt(s, 0) && s != [] {
      CollapseKeepsHead(s[1..]);
    }
  }

  /** Collapsing never lengthens, and shortens whenever the pattern matches somewhere. */
  lemma {:induction false} CollapseShrinks(s: string)
    ensures |CollapseSlashes(s)| <= |s|
    ensures (exists i :: CollapsesAt(s, i)) ==> |CollapseSlashes(s)| < |s|
    decreases |s|
  {
    if CollapsesAt(s, 0) {
      CollapseShrinks(s[2 + LeadingSlashes(s[2..])..]);
    } else if s != [] {
      CollapseShrinks(s[1..]);
      if exists i :: CollapsesAt(s, i) {
        var i :| CollapsesAt(s, i);
        CollapsesAtTail(s, i - 1);
      }
    }
  }

  /** A URL is left unchanged exactly when the pattern matches nowhere in it. */
  lemma {:induction false} CollapseUnchangedIff(s: string)
    ensures CollapseSlashes(s) == s <==> Clean(s)
    decreases |s|
  {
    CollapseShrinks(s);
    if Clean(s) && s != [] {
      assert !CollapsesAt(s, 0);
      forall i | 0 <= i < |s[1..]| ensures !CollapsesAt(s[1..], i) {
        CollapsesAtTail(s, i);
      }
      CollapseUnchangedIff(s[1..]);
      assert s == [s[0]] + s[1..];
    }
  }

  /** The result holds no further match. */
  lemma {:induction false} CollapseIsClean(s: string)
    ensures Clean(CollapseSlashes(s))
    decreases |s|
  {
    var r := CollapseSlashes(s);
    if CollapsesAt(s, 0) {
      var t := s[2 + LeadingSlashes(s[2..])..];
      assert t == [] || t[0] != '/';
      CollapseIsClean(t);
      CollapseKeepsHead(t);
      var c := CollapseSlashes(t);
      forall i ensures !CollapsesAt(r, i) {
        if i >= 2 {
          assert CollapsesAt(r, i) ==> CollapsesAt(c, i - 2);
        }
      }
    } else if s != [] {
      CollapseIsClean(s[1..]);
      CollapseKeepsHead(s[1..]);
      CollapseShrinks(s);
      forall i ensures !CollapsesAt(r, i) {
        if i >= 1 {
          CollapsesAtTail(r, i - 1);
        }
      }
    }
  }

  /** Normalising twice is normalising once. */
  lemma CollapseIdempotent(s: string)
    ensures CollapseSlashes(CollapseSlashes(s)) == CollapseSlashes(s)
  {
    CollapseIsClean(s);
    CollapseUnchangedIff(CollapseSlashes(s));
  }

  /** `s` with every `/` removed. */
  function WithoutSlashes(s: string): (r: string)
    ensures '/' !in r
  {
    if s == [] then [] else (if s[0] == '/' then [] else [s[0]]) + WithoutSlashes(s[1..])
  }

  lemma {:induction false} WithoutSlashesConcat(a: string, b: string)
    ensures WithoutSlashes(a + b) == WithoutSlashes(a) + WithoutSlashes(b)
    decreases |a|
  {
    if a == [] {
      assert a + b == b;
    } else {
      assert (a + b)[0] == a[0] && (a + b)[1..] == a[1..] + b;
      WithoutSlashesConcat(a[1..], b);
    }
  }

  lemma {:induction false} WithoutSlashesOfSlashes(u: string)
    requires forall i :: 0 <= i < |u| ==> u[i] == '/'
    ensures WithoutSlashes(u) == []
    decreases |u|
  {
    if u != [] {
      WithoutSlashesOfSlashes(u[1..]);
    }
  }

  /** Normalising only deletes `/`: every other character survives, in order. */
  lemma {:induction false} CollapseKeepsOtherCharacters(s: string)
    ensures WithoutSlashes(CollapseSlashes(s)) == WithoutSlashes(s)
    decreases |s|
  {
    if CollapsesAt(s, 0) {
      var k := LeadingSlashes(s[2..]);
      var t := s[2 + k..];
      var run := s[2..2 + k];
      assert s == s[..2] + (run + t);
      WithoutSlashesOfSlashes(run);
      WithoutSlashesConcat(run, t);
      WithoutSlashesConcat(s[..2], run + t);
      WithoutSlashesConcat(s[..2], CollapseSlashes(t));
      CollapseKeepsOtherCharacters(t);
    } else if s != [] {
      assert s == [s[0]] + s[1..];
      WithoutSlashesConcat([s[0]], s[1..]);
      WithoutSlashesConcat([s[0]], CollapseSlashes(s[1..]));
      CollapseKeepsOtherCharacters(s[1..]);
    }
  }

  /** `a` can be obtained from `b` by deleting characters. */
  predicate IsSubsequence(a: string, b: string)
    decreases |b|
  {
    a == [] || (b != [] && ((a[0] == b[0] && IsSubsequence(a[1..], b[1..])) || IsSubsequence(a, b[1..])))
  }

  lemma {:induction false} SubsequenceSkip(a: string, u: string, t: string)
    requires IsSubsequence(a, t)
    ensures IsSubsequence(a, u + t)
    decreases |u|
  {
    if u != [] && a != [] {
      assert (u + t)[1..] == u[1..] + t;
      SubsequenceSkip(a, u[1..], t);
    } else if u == [] {
      assert u + t == t;
    }
  }

  lemma {:induction false} SubsequencePrefix(p: string, a: string, b: string)
    requires IsSubsequence(a, b)
    ensures IsSubsequence(p + a, p + b)
    decreases |p|
  {
    if p == [] {
      assert p + a == a && p + b == b;
    } else {
      assert (p + a)[0] == p[0] && (p + a)[1..] == p[1..] + a;
      assert (p + b)[0] == p[0] && (p + b)[1..] == p[1..] + b;
      SubsequencePrefix(p[1..], a, b);
    }
  }

  /** The normalised URL is a subsequence of the original. */
  lemma {:induction false} CollapseIsSubsequence(s: string)
    ensures IsSubsequence(CollapseSlashes(s), s)
    decreases |s|
  {
    if CollapsesAt(s, 0) {
      var k := LeadingSlashes(s[2..]);
      var t := s[2 + k..];
      CollapseIsSubsequence(t);
      SubsequenceSkip(CollapseSlashes(t), s[2..2 + k], t);
      SubsequencePrefix(s[..2], CollapseSlashes(t), s[2..2 + k] + t);
      assert s == s[..2] + (s[2..2 + k] + t);
    } else if s != [] {
      CollapseIsSubsequence(s[1..]);
      SubsequencePrefix([s[0]], CollapseSlashes(s[1..]), s[1..]);
      assert s == [s[0]] + s[1..];
    }
  }

  /** `n` copies of `/`. */
  function Slashes(n: nat): (r: string)
    ensures |r| == n && forall i :: 0 <= i < n ==> r[i] == '/'
  {
    if n == 0 then [] else ['/'] + Slashes(n - 1)
  }

  lemma {:induction false} LeadingSlashesOfRun(n: nat, rest: string)
    requires rest == [] || rest[0] != '/'
    ensures LeadingSlashes(Slashes(n) + rest) == n
    decreases n
  {
    if n > 0 {
      assert (Slashes(n) + rest)[1..] == Slashes(n - 1) + rest;
      LeadingSlashesOfRun(n - 1, rest);
    } else {
      assert Slashes(n) + rest == rest;
    }
  }

  /**
   * A prefix without `/` is kept as it is, provided its last character and
   * what follows do not form a match.
   */
  lemma {:induction false} CollapseKeepsPrefix(w: string, t: string)
    requires '/' !in w
    requires w != [] && w[|w| - 1] != ':' ==> |t| < 2 || t[0] != '/' || t[1] != '/'
    ensures CollapseSlashes(w + t) == w + CollapseSlashes(t)
    decreases |w|
  {
    if w == [] {
      assert w + t == t;
    } else {
      var s := w + t;
      assert s[0] == w[0];
      if |w| > 1 {
        assert s[1] == w[1];
      } else {
        assert s[1..] == t;
      }
      CollapseStep(s);
      assert s[1..] == w[1..] + t;
      CollapseKeepsPrefix(w[1..], t);
      assert w == [w[0]] + w[1..];
    }
  }

  /**
   * A run of two or more `/` after a segment without `/` that does not end in
   * `:` collapses to one `/`.
   */
  lemma {:induction false} CollapseRunAfterSegment(w: string, n: nat, rest: string)
    requires w != [] && '/' !in w && w[|w| - 1] != ':'
    requires n >= 2
    requires rest == [] || rest[0] != '/'
    ensures CollapseSlashes(w + Slashes(n) + rest) == w + "/" + CollapseSlashes(rest)
  {
    var init, c := w[..|w| - 1], w[|w| - 1];
    var t := [c] + Slashes(n) + rest;
    assert w == init + [c];
    assert w + Slashes(n) + rest == init + t;
    assert '/' !in init;
    CollapseKeepsPrefix(init, t);
    CollapseRunAt(c, n, rest);
  }

  /** A `://` scheme separator after a segment without `/` is left intact. */
  lemma {:induction false} CollapseKeepsScheme(w: string, rest: string)
    requires '/' !in w
    requires rest == [] || rest[0] != '/'
    ensures CollapseSlashes(w + "://" + rest) == w + "://" + CollapseSlashes(rest)
  {
    var t := "://" + rest;
    assert w + "://" + rest == w + t;
    CollapseKeepsPrefix(w, t);
    SchemeSeparatorKept(rest);
  }

  /** Where the pattern does not match at the start, the first character is kept as it is. */
  lemma CollapseStep(s: string)
    requires s != [] && !CollapsesAt(s, 0)
    ensures CollapseSlashes(s) == [s[0]] + CollapseSlashes(s[1..])
  {
  }

  /** A non-colon character followed by two or more `/`: the run becomes one `/`. */
  lemma {:induction false} CollapseRunAt(c: char, n: nat, rest: string)
    requires c != ':' && n >= 2
    requires rest == [] || rest[0] != '/'
    ensures CollapseSlashes([c] + Slashes(n) + rest) == [c] + "/" + CollapseSlashes(rest)
  {
    var s := [c] + Slashes(n) + rest;
    var t := Slashes(n - 1) + rest;
    assert Slashes(n) == ['/'] + Slashes(n - 1);
    assert s == [c, '/'] + t;
    assert s[..2] == [c, '/'] && s[2..] == t;
    assert t[0] == '/';
    CollapseMatchStep(s);
    LeadingSlashesOfRun(n - 1, rest);
    assert s[2 + (n - 1)..] == t[n - 1..] == rest;
    assert [c] + "/" == [c, '/'];
  }

  /** Where the pattern matches at the start, the character and one `/` are kept and the run is skipped. */
  lemma CollapseMatchStep(s: string)
    requires CollapsesAt(s, 0)
    ensures CollapseSlashes(s) == s[..2] + CollapseSlashes(s[2 + LeadingSlashes(s[2..])..])
  {
  }

  /** The separator `://` is kept when no further `/` follows it. */
  lemma {:induction false} SchemeSeparatorKept(rest: string)
    requires rest == [] || rest[0] != '/'
    ensures CollapseSlashes("://" + rest) == "://" + CollapseSlashes(rest)
  {
    var b := ['/'] + rest;
    var a := ['/'] + b;
    var s := [':'] + a;
    assert !CollapsesAt(b, 0);
    CollapseStep(b);
    assert b[1..] == rest;
    assert !CollapsesAt(a, 0);
    CollapseStep(a);
    assert a[1..] == b;
    CollapseStep(s);
    assert s[1..] == a;
    assert s == "://" + rest;
  }

  /** A segment without `/` is left as it is. */
  lemma {:induction false} CollapseWithoutSlashes(w: string)
    requires '/' !in w
    ensures CollapseSlashes(w) == w
    decreases |w|
  {
    if w != [] {
      CollapseWithoutSlashes(w[1..]);
      assert w == [w[0]] + w[1..];
    }
  }

  /**
   * Doubled separators between path segments each collapse to one:
   * host//dir//file becomes host/dir/file.
   */
  lemma {:induction false} CollapseDoubledSeparators(host: string, dir: string, file: string)
    requires host != [] && '/' !in host && host[|host| - 1] != ':'
    requires dir != [] && '/' !in dir && dir[|dir| - 1] != ':'
    requires file == [] || '/' !in file
    ensures CollapseSlashes(host + "//" + dir + "//" + file) == host + "/" + dir + "/" + file
  {
    var two := Slashes(2);
    var tail := dir + two + file;
    var input := host + "//" + dir + "//" + file;
    assert input == host + two + tail by {
      assert two == "//";
    }
    assert CollapseSlashes(tail) == dir + "/" + file by {
      assert two == "//";
      assert file == [] || file[0] != '/';
      CollapseWithoutSlashes(file);
      CollapseRunAfterSegment(dir, 2, file);
    }
    assert CollapseSlashes(host + two + tail) == host + "/" + CollapseSlashes(tail) by {
      assert tail[0] == dir[0] && dir[0] != '/';
      CollapseRunAfterSegment(host, 2, tail);
    }
    assert host + "/" + (dir + "/" + file) == host + "/" + dir + "/" + file;
  }

  /**
   * "foo.com//images//x.jpg" normalises to "foo.com/images/x.jpg". The
   * literals come in as parameters fixed by the requires clauses: written
   * inline, the solver unfolds every string literal character by character
   * and the proof no longer fits its resource budget.
   */
  lemma DoubledSeparatorsExample(host: string, dir: string, file: string)
    requires host == "foo.com" && dir == "images" && file == "x.jpg"
    ensures CollapseSlashes(host + "//" + dir + "//" + file) == host + "/" + dir + "/" + file
  {
    CollapseDoubledSeparators(host, dir, file);
  }

  /** The image is rendered exactly when the part has a non-empty image URL. */
  lemma ShowsImageIff(p: Part)
    ensures ShowsImage(p) <==> Truthy(p.imageUrl)
  {
    if p.imageUrl.Some? {
      CollapseKeepsHead(p.imageUrl.value);
      if p.imageUrl.value == "" {
        assert CollapseSlashes(p.imageUrl.value) == "";
      }
    }
  }

  // ---------------------------------------------------------------------------
  // The location line
  // ---------------------------------------------------------------------------

  /**
   * `[suburb, state].filter(Boolean).join(', ')`, rendered only when suburb
   * or state is truthy.
   */
  function LocationLine(suburb: Option<string>, state: Option<string>): (r: Option<string>)
    ensures r.None? <==> !Truthy(suburb) && !Truthy(state)
    ensures Truthy(suburb) && Truthy(state) ==> r == Some(suburb.value + ", " + state.value)
    ensures Truthy(suburb) && !Truthy(state) ==> r == Some(suburb.value)
    ensures !Truthy(suburb) && Truthy(state) ==> r == Some(state.value)
  {
    if Truthy(suburb) || Truthy(state) then
      CompactCons(state, []);
      CompactCons(suburb, [state]);
      assert [suburb, state] == [suburb] + [state];
      JoinPresentPair(suburb, state, ", ");
      Some(Join(Compact([suburb, state]), ", "))
    else None
  }

  // ---------------------------------------------------------------------------
  // The card
  // ---------------------------------------------------------------------------

  /** The text blocks of a card; an absent block is not rendered. */
  datatype CardText = CardText(
    image: Option<string>,
    title: string,
    vehicle: Option<string>,
    location: Option<string>)

  function Card(p: Part): (c: CardText)
    ensures c.title == p.title
    ensures c.image.Some? <==> Truthy(p.imageUrl)
    ensures c.image.Some? ==> c.image.value == CollapseSlashes(p.imageUrl.value)
    ensures c.vehicle.None? <==>
      !Truthy(p.vehicleMake) && !Truthy(p.vehicleModel) && !TruthyNumber(p.yearFrom) && !TruthyNumber(p.yearTo)
    ensures c.vehicle.Some? ==> c.vehicle.value == MakeModelYear(p) && c.vehicle.value != ""
    ensures c.location.None? <==> !Truthy(p.locationSuburb) && !Truthy(p.locationState)
    ensures c.location == LocationLine(p.locationSuburb, p.locationState)
    ensures c.location.Some? ==> c.location.value != ""
  {
    ShowsImageIff(p);
    VehicleLineShownIff(p);
    CardText(
      if ShowsImage(p) then NormalizedImageUrl(p.imageUrl) else None,
      p.title,
      VehicleLine(p),
      LocationLine(p.locationSuburb, p.locationState))
  }
}

=== FILE: parts_page.dfy ===
/**
 * The parts page: the listing query built from the filter record, the make
 * and model facets, the source list, and the caption over the listing.
 *
 * The store is an in-memory table: each read receives the rows of the table
 * it selects from, or the error the store would report instead.
 */
module PartsPage {
  import opened Wrappers
  import opened Strings
  import opened Sorting
  import opened Catalog

  // ---------------------------------------------------------------------------
  // Store-side conditions
  // ---------------------------------------------------------------------------

  datatype Column = Title | Description | VehicleMake | VehicleModel | SourceId

  /** The value of a column of a part row; `None` is SQL NULL. */
  function ColumnValue(p: Part, c: Column): Option<string> {
    match c
    case Title => Some(p.title)
    case Description => p.description
    case VehicleMake => p.vehicleMake
    case VehicleModel => p.vehicleModel
    case SourceId => Some(p.sourceId)
  }

  /**
   * One filter the query builder adds: `.eq(column, value)`, or
   * `.or("c1.ilike.pattern,c2.ilike.pattern,...")`.
   */
  datatype Condition =
    | Eq(column: Column, value: string)
    | AnyILike(columns: seq<Column>, pattern: string)

  /** SQL truth of a condition for a row: a NULL column satisfies neither form. */
  predicate Holds(p: Part, c: Condition) {
    match c
    case Eq(col, v) => ColumnValue(p, col) == Some(v)
    case AnyILike(cols, pat) =>
      exists i | 0 <= i < |cols| :: ColumnValue(p, cols[i]).Some? && ILike(ColumnValue(p, cols[i]).value, pat)
  }

  /** A row satisfies a query when it satisfies every condition of it. */
  predicate Satisfies(p: Part, query: seq<Condition>) {
    forall i | 0 <= i < |query| :: Holds(p, query[i])
  }

  /** The store running a query: the rows that satisfy it, in table order. */
  function Evaluate(rows: seq<Part>, query: seq<Condition>): (r: seq<Part>)
    ensures |r| <= |rows|
    ensures forall p :: p in r <==> p in rows && Satisfies(p, query)
  {
    if rows == [] then []
    else if Satisfies(rows[0], query) then [rows[0]] + Evaluate(rows[1..], query)
    else Evaluate(rows[1..], query)
  }

  // ---------------------------------------------------------------------------
  // What the listing means
  // ---------------------------------------------------------------------------

  /** Case-insensitive `LIKE '%q%'` on the title, or on a non-NULL description. */
  predicate TextMatches(p: Part, q: string) {
    ILike(p.title, "%" + q + "%")
    || (p.description.Some? && ILike(p.description.value, "%" + q + "%"))
  }

  /** A part the filter record selects: every truthy field constrains it. */
  predicate Matches(p: Part, f: Filters) {
    && (Truthy(f.make) ==> p.vehicleMake == f.make)
    && (Truthy(f.model) ==> p.vehicleModel == f.model)
    && (Truthy(f.source) ==> p.sourceId == f.source.value)
    && (Truthy(f.q) ==> TextMatches(p, f.q.value))
  }

  predicate AnyActive(f: Filters) {
    Truthy(f.make) || Truthy(f.model) || Truthy(f.source) || Truthy(f.q)
  }

  /** The listing of a table under a filter record: its matching rows, in order. */
  function Listing(rows: seq<Part>, f: Filters): seq<Part> {
    if rows == [] then []
    else if Matches(rows[0], f) then [rows[0]] + Listing(rows[1..], f)
    else Listing(rows[1..], f)
  }

  // ---------------------------------------------------------------------------
  // getParts
  // ---------------------------------------------------------------------------

  /**
   * The query builder: starts from every row and adds one condition per
   * truthy filter field, in the order make, model, source, text.
   */
  method BuildQuery(f: Filters) returns (query: seq<Condition>)
    ensures forall p :: Satisfies(p, query) <==> Matches(p, f)
    ensures query == [] <==> !AnyActive(f)
    ensures |query| <= 4
  {
    query := [];
    if Truthy(f.make) {
      query := query + [Eq(VehicleMake, f.make.value)];
    }
    if Truthy(f.model) {
      query := query + [Eq(VehicleModel, f.model.value)];
    }
    if Truthy(f.source) {
      query := query + [Eq(SourceId, f.source.value)];
    }
    if Truthy(f.q) {
      var searchTerm := "%" + f.q.value + "%";
      query := query + [AnyILike([Title, Description], searchTerm)];
    }
    assert query == QueryFor(f);
    forall p ensures Satisfies(p, query) <==> Matches(p, f) {
      SatisfiesBuiltQuery(p, f, query);
    }
  }

  /** The conditions BuildQuery emits for a filter record, in order. */
  function QueryFor(f: Filters): seq<Condition> {
    (if Truthy(f.make) then [Eq(VehicleMake, f.make.value)] else [])
    + (if Truthy(f.model) then [Eq(VehicleModel, f.model.value)] else [])
    + (if Truthy(f.source) then [Eq(SourceId, f.source.value)] else [])
    + (if Truthy(f.q) then [AnyILike([Title, Description], "%" + f.q.value + "%")] else [])
  }

  lemma SatisfiesConcat(p: Part, a: seq<Condition>, b: seq<Condition>)
    ensures Satisfies(p, a + b) <==> Satisfies(p, a) && Satisfies(p, b)
  {
    if Satisfies(p, a) && Satisfies(p, b) {
      forall i | 0 <= i < |a + b| ensures Holds(p, (a + b)[i]) {
        if i >= |a| {
          assert (a + b)[i] == b[i - |a|];
        }
      }
    }
    if Satisfies(p, a + b) {
      forall i | 0 <= i < |b| ensures Holds(p, b[i]) {
        assert (a + b)[|a| + i] == b[i];
      }
      forall i | 0 <= i < |a| ensures Holds(p, a[i]) {
        assert (a + b)[i] == a[i];
      }
    }
  }

  lemma SatisfiesOne(p: Part, cs: seq<Condition>)
    requires |cs| <= 1
    ensures Satisfies(p, cs) <==> (cs != [] ==> Holds(p, cs[0]))
  {
  }

  lemma SatisfiesBuiltQuery(p: Part, f: Filters, query: seq<Condition>)
    requires query == QueryFor(f)
    ensures Satisfies(p, query) <==> Matches(p, f)
  {
    var m := if Truthy(f.make) then [Eq(VehicleMake, f.make.value)] else [];
    var o := if Truthy(f.model) then [Eq(VehicleModel, f.model.value)] else [];
    var s := if Truthy(f.source) then [Eq(SourceId, f.source.value)] else [];
    var t := if Truthy(f.q) then [AnyILike([Title, Description], "%" + f.q.value + "%")] else [];
    assert query == m + o + s + t;
    SatisfiesConcat(p, m + o + s, t);
    SatisfiesConcat(p, m + o, s);
    SatisfiesConcat(p, m, o);
    SatisfiesOne(p, m);
    SatisfiesOne(p, o);
    SatisfiesOne(p, s);
    SatisfiesOne(p, t);
    if Truthy(f.q) {
      var cols := [Title, Description];
      assert Holds(p, t[0]) <==> TextMatches(p, f.q.value) by {
        assert ColumnValue(p, cols[0]) == Some(p.title);
        assert ColumnValue(p, cols[1]) == p.description;
      }
    }
  }

  /** The store evaluates the built query to exactly the listing. */
  lemma {:induction false} EvaluateIsListing(rows: seq<Part>, query: seq<Condition>, f: Filters)
    requires forall p :: Satisfies(p, query) <==> Matches(p, f)
    ensures Evaluate(rows, query) == Listing(rows, f)
    decreases |rows|
  {
    if rows != [] {
      EvaluateIsListing(rows[1..], query, f);
    }
  }

  /**
   * `getParts`: build the query, run it once, and give back every row it
   * selects; a store error gives the empty listing.
   */
  method GetParts(table: Reply<Part>, f: Filters) returns (parts: seq<Part>)
    ensures table.Failure? ==> parts == []
    ensures table.Success? ==> parts == Listing(table.value, f)
  {
    var query := BuildQuery(f);
    if table.Failure? {
      return [];
    }
    parts := Evaluate(table.value, query);
    EvaluateIsListing(table.value, query, f);
  }

  // ---------------------------------------------------------------------------
  // Properties of the listing
  // ---------------------------------------------------------------------------

  /**
   * The listing holds each matching row as often as the table does, and no
   * other row: it is sound and complete.
   */
  lemma {:induction false} ListingCount(rows: seq<Part>, f: Filters, p: Part)
    ensures multiset(Listing(rows, f))[p] == if Matches(p, f) then multiset(rows)[p] else 0
    decreases |rows|
  {
    if rows != [] {
      ListingCount(rows[1..], f, p);
      assert rows == [rows[0]] + rows[1..];
    }
  }

  /** Every listed part is a stored part that meets each active filter. */
  lemma ListedPartsMeetFilters(rows: seq<Part>, f: Filters, p: Part)
    requires p in Listing(rows, f)
    ensures p in rows
    ensures Truthy(f.make) ==> p.vehicleMake == f.make
    ensures Truthy(f.model) ==> p.vehicleModel == f.model
    ensures Truthy(f.source) ==> p.sourceId == f.source.value
    ensures Truthy(f.q) ==>
      (ILike(p.title, "%" + f.q.value + "%")
       || (p.description.Some? && ILike(p.description.value, "%" + f.q.value + "%")))
  {
    ListingCount(rows, f, p);
    assert p in multiset(Listing(rows, f));
  }

  /**
   * For search text without special characters (`Literal`: no `%`, `_`,
   * `\`, `*`, `,`, `(` or `)`), a listed part holds the text in its title
   * or in a non-NULL description, ignoring ASCII case.
   */
  lemma ListedPartsContainSearchText(rows: seq<Part>, f: Filters, p: Part)
    requires p in Listing(rows, f)
    requires Truthy(f.q) && Literal(f.q.value)
    ensures ContainsIgnoringCase(p.title, f.q.value)
         || (p.description.Some? && ContainsIgnoringCase(p.description.value, f.q.value))
  {
    ListedPartsMeetFilters(rows, f, p);
    ILikeWrappedIsContains(p.title, f.q.value);
    if p.description.Some? {
      ILikeWrappedIsContains(p.description.value, f.q.value);
    }
  }

  /** Every stored part that meets the active filters is listed. */
  lemma ListingComplete(rows: seq<Part>, f: Filters, p: Part)
    requires p in rows && Matches(p, f)
    ensures p in Listing(rows, f)
  {
    ListingCount(rows, f, p);
    assert p in multiset(rows);
  }

  /** Without an active filter the listing is the whole table, unchanged. */
  lemma {:induction false} ListingUnfiltered(rows: seq<Part>, f: Filters)
    requires !AnyActive(f)
    ensures Listing(rows, f) == rows
    decreases |rows|
  {
    if rows != [] {
      ListingUnfiltered(rows[1..], f);
      assert rows == [rows[0]] + rows[1..];
    }
  }

  /** The filter record with every empty field made absent. */
  function DropEmptyFields(f: Filters): (g: Filters)
    ensures g.make.Some? ==> g.make.value != ""
    ensures g.model.Some? ==> g.model.value != ""
    ensures g.source.Some? ==> g.source.value != ""
    ensures g.q.Some? ==> g.q.value != ""
  {
    Filters(
      if Truthy(f.make) then f.make else None,
      if Truthy(f.model) then f.model else None,
      if Truthy(f.source) then f.source else None,
      if Truthy(f.q) then f.q else None)
  }

  /** An empty filter field selects exactly what an absent one does. */
  lemma {:induction false} EmptyFieldIsAbsent(rows: seq<Part>, f: Filters)
    ensures Listing(rows, f) == Listing(rows, DropEmptyFields(f))
    decreases |rows|
  {
    if rows != [] {
      EmptyFieldIsAbsent(rows[1..], f);
      assert Matches(rows[0], f) <==> Matches(rows[0], DropEmptyFields(f));
    }
  }

  /** "Bumper" lower-cased is "bumper", and so is "bumper". */
  lemma BumperLower()
    ensures Lower("Bumper") == "bumper"
    ensures Lower("bumper") == "bumper"
  {
    LowerWithoutCapitals("umper");
    LowerWithoutCapitals("bumper");
    assert "Bumper"[1..] == "umper";
  }

  lemma TitleMatchesBumper(title: string)
    requires title == "Front " + "Bumper"
    ensures ILike(title, "%" + "bumper" + "%")
  {
    BumperLower();
    LowerConcat("Front ", "Bumper");
    assert Lower(title)[6..12] == "bumper";
    assert OccursAt(Lower(title), Lower("bumper"), 6);
    ILikeWrappedIsContains(title, "bumper");
  }

  /**
   * A Toyota part titled "Front Bumper" and a Honda part titled "Rear Bumper":
   * filtering by make Toyota and text "bumper" lists only the first. The two
   * parts and the filter come in as parameters fixed by the requires clauses,
   * which keeps the solver from unfolding the literals inside every step.
   */
  lemma ToyotaBumperScenario(toyota: Part, honda: Part, f: Filters)
    requires toyota == Part("p1", "s1", "Front Bumper", None, Some("Toyota"), None, None, None, None, None, None)
    requires honda == Part("p2", "s1", "Rear Bumper", None, Some("Honda"), None, None, None, None, None, None)
    requires f == Filters(Some("Toyota"), None, None, Some("bumper"))
    ensures Listing([toyota, honda], f) == [toyota]
  {
    ToyotaFrontBumperListed(toyota, f);
    HondaExcluded(honda, f);
    ListingOfPair(toyota, honda, f);
  }

  /** Of two rows where only the first matches, the listing is the first. */
  lemma ListingOfPair(a: Part, b: Part, f: Filters)
    requires Matches(a, f) && !Matches(b, f)
    ensures Listing([a, b], f) == [a]
  {
    assert [a, b][0] == a && [a, b][1..] == [b];
    assert [b][0] == b && [b][1..] == [];
    assert Listing([b], f) == Listing([], f);
    assert Listing([a, b], f) == [a] + Listing([b], f);
  }

  lemma ToyotaFrontBumperListed(toyota: Part, f: Filters)
    requires toyota == Part("p1", "s1", "Front Bumper", None, Some("Toyota"), None, None, None, None, None, None)
    requires f == Filters(Some("Toyota"), None, None, Some("bumper"))
    ensures Matches(toyota, f)
  {
    assert "Front Bumper" == "Front " + "Bumper";
    TitleMatchesBumper(toyota.title);
  }

  lemma HondaExcluded(honda: Part, f: Filters)
    requires honda == Part("p2", "s1", "Rear Bumper", None, Some("Honda"), None, None, None, None, None, None)
    requires f == Filters(Some("Toyota"), None, None, Some("bumper"))
    ensures !Matches(honda, f)
  {
  }

  // ---------------------------------------------------------------------------
  // getMakes, getModels: distinct non-empty values, sorted
  // ---------------------------------------------------------------------------

  /** `.select(column).not(column, 'is', null)` then `.map(...)`: the non-NULL values, in row order. */
  function NonNullColumn(rows: seq<Part>, c: Column): (r: seq<string>)
    ensures forall x :: x in r <==> exists p :: p in rows && ColumnValue(p, c) == Some(x)
  {
    if rows == [] then []
    else
      assert forall p :: p in rows <==> p == rows[0] || p in rows[1..];
      if ColumnValue(rows[0], c).Some? then [ColumnValue(rows[0], c).value] + NonNullColumn(rows[1..], c)
      else NonNullColumn(rows[1..], c)
  }

  /**
   * `.filter(Boolean)` on column values that are already non-NULL: the
   * string case of `Compact`, the non-empty values in order.
   */
  function NonEmpty(values: seq<string>): (r: seq<string>)
    ensures forall x :: x in r <==> x in values && x != ""
  {
    var present := seq(|values|, i requires 0 <= i < |values| => Some(values[i]));
    assert forall x :: Some(x) in present <==> x in values by {
      forall x | x in values ensures Some(x) in present {
        var i :| 0 <= i < |values| && values[i] == x;
        assert present[i] == Some(x);
      }
    }
    Compact(present)
  }

  /**
   * `Array.from(new Set(values.filter(Boolean))).sort()`: every non-empty
   * value exactly once, in strictly ascending order.
   */
  function Facet(values: seq<string>): (r: seq<string>)
    ensures StrictlyAscending(r)
    ensures forall x :: x in r <==> x in values && x != ""
  {
    var distinct := Dedupe(NonEmpty(values));
    SortDistinct(distinct);
    Sort(distinct)
  }

  /** `getMakes`: the make facet; a store error gives no makes. */
  function GetMakes(table: Reply<Part>): (makes: seq<string>)
    ensures table.Failure? ==> makes == []
    ensures StrictlyAscending(makes)
    ensures table.Success? ==>
      forall x :: x in makes <==> x != "" && exists p :: p in table.value && p.vehicleMake == Some(x)
  {
    match table
    case Failure(_) => []
    case Success(rows) => Facet(NonNullColumn(rows, VehicleMake))
  }

  /** The conditions `getModels` adds: `vehicleMake = make` when make is truthy. */
  function ModelQuery(make: Option<string>): seq<Condition> {
    if Truthy(make) then [Eq(VehicleMake, make.value)] else []
  }

  /**
   * `getModels`: the model facet, restricted to parts of the given make when
   * one is given; a store error gives no models.
   */
  function GetModels(table: Reply<Part>, make: Option<string>): (models: seq<string>)
    ensures table.Failure? ==> models == []
    ensures StrictlyAscending(models)
    ensures table.Success? ==>
      forall x :: x in models <==>
        x != "" && exists p :: p in table.value && p.vehicleModel == Some(x)
                              && (Truthy(make) ==> p.vehicleMake == make)
  {
    match table
    case Failure(_) => []
    case Success(rows) =>
      var selected := Evaluate(rows, ModelQuery(make));
      assert forall p :: Satisfies(p, ModelQuery(make)) <==> (Truthy(make) ==> p.vehicleMake == make) by {
        forall p ensures Satisfies(p, ModelQuery(make)) <==> (Truthy(make) ==> p.vehicleMake == make) {
          if Truthy(make) {
            assert Satisfies(p, ModelQuery(make)) <==> Holds(p, ModelQuery(make)[0]);
          }
        }
      }
      Facet(NonNullColumn(selected, VehicleModel))
  }

  /** The models offered for a make are among the models offered for all makes. */
  lemma ModelsForMakeAmongAllModels(table: Reply<Part>, make: Option<string>)
    ensures forall x :: x in GetModels(table, make) ==> x in GetModels(table, None)
  {
  }

  /** An empty make restricts nothing: the facet is the unrestricted one. */
  lemma ModelsForEmptyMake(table: Reply<Part>)
    ensures GetModels(table, Some("")) == GetModels(table, None)
  {
  }

  /**
   * The facets are determined by their contents: any strictly ascending
   * sequence with the same elements is the facet itself.
   */
  lemma FacetUnique(values: seq<string>, other: seq<string>)
    requires StrictlyAscending(other)
    requires forall x :: x in other <==> x in values && x != ""
    ensures other == Facet(values)
  {
    var r := Facet(values);
    StrictIsSortedDistinct(other);
    StrictIsSortedDistinct(r);
    SameElementsSameMultiset(other, r);
    SortedUnique(other, r);
  }

  lemma StrictIsSortedDistinct(s: seq<string>)
    requires StrictlyAscending(s)
    ensures Sorted(s) && NoDuplicates(s)
  {
    forall i, j | 0 <= i < j < |s| ensures s[i] != s[j] {
      LexLessIrreflexive(s[i]);
    }
  }

  lemma SameElementsSameMultiset(a: seq<string>, b: seq<string>)
    requires NoDuplicates(a) && NoDuplicates(b)
    requires forall x :: x in a <==> x in b
    ensures multiset(a) == multiset(b)
  {
    forall x ensures multiset(a)[x] == multiset(b)[x] {
      NoDuplicatesCount(a, x);
      NoDuplicatesCount(b, x);
      assert x in a <==> x in multiset(a);
      assert x in b <==> x in multiset(b);
    }
  }

  // ---------------------------------------------------------------------------
  // getSources
  // ---------------------------------------------------------------------------

  /** `getSources`: the store's `{id, name}` rows (ordered by name by the store); a store error gives none. */
  function GetSources(table: Reply<Source>): (sources: seq<Source>)
    ensures table.Failure? ==> sources == []
    ensures table.Success? ==> sources == table.value
  {
    match table
    case Failure(_) => []
    case Success(rows) => rows
  }

  // ---------------------------------------------------------------------------
  // The caption over the listing
  // ---------------------------------------------------------------------------

  /** "Showing n part", with a plural "s" unless the listing has exactly one part. */
  function ShowingCaption(n: nat): (caption: string)
    ensures |caption| > 8
    ensures caption[..8] == "Showing "
    ensures n == 1 ==> caption == "Showing 1 part"
    ensures n != 1 ==> caption[|caption| - 6..] == " parts"
  {
    "Showing " + NatToString(n) + " part" + (if n != 1 then "s" else "")
  }

  /** The numeral between "Showing " and " part" reads back as the listing size. */
  lemma ShowingCaptionCount(n: nat)
    ensures var caption := ShowingCaption(n);
      var digits := caption[8..|caption| - (if n != 1 then 6 else 5)];
      && (forall i :: 0 <= i < |digits| ==> IsDigit(digits[i]))
      && DigitsValue(digits) == n
  {
    var caption := ShowingCaption(n);
    var numeral := NatToString(n);
    var suffix := " part" + (if n != 1 then "s" else "");
    assert caption == "Showing " + numeral + suffix;
    assert caption[8..|caption| - |suffix|] == numeral;
    NatToStringRoundTrip(n);
  }
}

=== FILE: sorting.dfy ===
/**
 * The two collection steps of the facet pipeline: `Array.from(new Set(xs))`,
 * which keeps the first occurrence of every value in order of appearance, and
 * the default `Array.prototype.sort()`, which orders strings lexicographically.
 */
module Sorting {
  import opened Strings

  predicate NoDuplicates<T(==)>(s: seq<T>) {
    forall i, j :: 0 <= i < j < |s| ==> s[i] != s[j]
  }

  predicate Sorted(s: seq<string>) {
    forall i, j :: 0 <= i < j < |s| ==> LexLeq(s[i], s[j])
  }

  predicate StrictlyAscending(s: seq<string>) {
    forall i, j :: 0 <= i < j < |s| ==> LexLess(s[i], s[j])
  }

  // ---------------------------------------------------------------------------
  // Set insertion order
  // ---------------------------------------------------------------------------

  /** `Array.from(new Set(xs))`: each value once, where it first appears. */
  function Dedupe(xs: seq<string>): (r: seq<string>)
    ensures NoDuplicates(r)
    ensures forall x :: x in r <==> x in xs
  {
    if xs == [] then []
    else
      var d := Dedupe(xs[..|xs| - 1]);
      var x := xs[|xs| - 1];
      assert xs == xs[..|xs| - 1] + [x];
      if x in d then d else d + [x]
  }

  // ---------------------------------------------------------------------------
  // Sorting
  // ---------------------------------------------------------------------------

  function Insert(x: string, s: seq<string>): seq<string> {
    if s == [] || LexLeq(x, s[0]) then [x] + s else [s[0]] + Insert(x, s[1..])
  }

  /** The array in ascending order (insertion sort; see SortedUnique for why the algorithm does not matter). */
  function Sort(xs: seq<string>): seq<string> {
    if xs == [] then [] else Insert(xs[0], Sort(xs[1..]))
  }

  lemma SortedCons(a: string, t: seq<string>)
    requires Sorted(t)
    requires forall y :: y in t ==> LexLeq(a, y)
    ensures Sorted([a] + t)
  {
    var s := [a] + t;
    forall i, j | 0 <= i < j < |s| ensures LexLeq(s[i], s[j]) {
      if i == 0 {
        assert s[j] == t[j - 1] && t[j - 1] in t;
      } else {
        assert s[i] == t[i - 1] && s[j] == t[j - 1];
      }
    }
  }

  lemma {:induction false} InsertSorted(x: string, s: seq<string>)
    requires Sorted(s)
    ensures Sorted(Insert(x, s))
    ensures multiset(Insert(x, s)) == multiset(s) + multiset{x}
    decreases |s|
  {
    if s == [] {
    } else if LexLeq(x, s[0]) {
      InsertFront(x, s);
    } else {
      SortedTail(s);
      InsertSorted(x, s[1..]);
      InsertLater(x, s);
    }
  }

  /** An element that sorts at or before the head goes in front. */
  lemma InsertFront(x: string, s: seq<string>)
    requires Sorted(s) && s != [] && LexLeq(x, s[0])
    ensures Sorted([x] + s)
  {
    forall y | y in s ensures LexLeq(x, y) {
      var j :| 0 <= j < |s| && s[j] == y;
      if j > 0 {
        LexLeqTransitive(x, s[0], s[j]);
      }
    }
    SortedCons(x, s);
  }

  /** An element that sorts after the head goes into the tail, which stays after the head. */
  lemma InsertLater(x: string, s: seq<string>)
    requires Sorted(s) && s != [] && !LexLeq(x, s[0])
    requires Sorted(Insert(x, s[1..]))
    requires multiset(Insert(x, s[1..])) == multiset(s[1..]) + multiset{x}
    ensures Sorted(Insert(x, s))
    ensures multiset(Insert(x, s)) == multiset(s) + multiset{x}
  {
    LexLessTotal(x, s[0]);
    var t := s[1..];
    var r := Insert(x, t);
    forall y | y in r ensures LexLeq(s[0], y) {
      assert y in multiset(r);
      if y != x {
        assert y in multiset(t);
        var j :| 0 <= j < |t| && t[j] == y;
        assert s[j + 1] == y;
      }
    }
    SortedCons(s[0], r);
    assert Insert(x, s) == [s[0]] + r;
    assert s == [s[0]] + t;
  }

  /** Sorting yields an ascending arrangement of the same elements. */
  lemma {:induction false} SortSpec(xs: seq<string>)
    ensures Sorted(Sort(xs))
    ensures multiset(Sort(xs)) == multiset(xs)
    decreases |xs|
  {
    if xs != [] {
      SortSpec(xs[1..]);
      InsertSorted(xs[0], Sort(xs[1..]));
      assert xs == [xs[0]] + xs[1..];
    }
  }

  lemma SortedTail(s: seq<string>)
    requires Sorted(s) && s != []
    ensures Sorted(s[1..])
  {
    forall i, j | 0 <= i < j < |s[1..]| ensures LexLeq(s[1..][i], s[1..][j]) {
      assert s[1..][i] == s[i + 1] && s[1..][j] == s[j + 1];
    }
  }

  /** The head of an ascending sequence sorts before each of its elements. */
  lemma SortedHeadFirst(s: seq<string>, x: string)
    requires Sorted(s) && x in multiset(s)
    ensures LexLeq(s[0], x)
  {
    var k :| 0 <= k < |s| && s[k] == x;
    if k > 0 {
      assert LexLeq(s[0], s[k]);
    }
  }

  lemma MultisetTail<T>(s: seq<T>)
    requires s != []
    ensures multiset(s[1..]) == multiset(s) - multiset{s[0]}
  {
    assert s == [s[0]] + s[1..];
  }

  /**
   * Two ascending arrangements of the same elements are equal, so every
   * correct sorting algorithm produces the sequence Sort produces.
   */
  lemma {:induction false} SortedUnique(a: seq<string>, b: seq<string>)
    requires Sorted(a) && Sorted(b)
    requires multiset(a) == multiset(b)
    ensures a == b
    decreases |a|
  {
    assert |a| == |multiset(a)| && |b| == |multiset(b)|;
    if a != [] {
      assert a[0] in multiset(a) && b[0] in multiset(b);
      SortedHeadFirst(b, a[0]);
      SortedHeadFirst(a, b[0]);
      LexLeqAntisymmetric(a[0], b[0]);
      MultisetTail(a);
      MultisetTail(b);
      SortedTail(a);
      SortedTail(b);
      SortedUnique(a[1..], b[1..]);
      assert a == [a[0]] + a[1..] && b == [b[0]] + b[1..];
    }
  }

  // ---------------------------------------------------------------------------
  // Duplicates and multisets
  // ---------------------------------------------------------------------------

  lemma {:induction false} NoDuplicatesCount<T>(s: seq<T>, x: T)
    requires NoDuplicates(s)
    ensures multiset(s)[x] <= 1
    decreases |s|
  {
    if s != [] {
      assert s == [s[0]] + s[1..];
      assert NoDuplicates(s[1..]) by {
        forall i, j | 0 <= i < j < |s[1..]| ensures s[1..][i] != s[1..][j] {
          assert s[1..][i] == s[i + 1] && s[1..][j] == s[j + 1];
        }
      }
      NoDuplicatesCount(s[1..], x);
      if s[0] == x {
        assert x !in s[1..];
        assert multiset(s[1..])[x] == 0;
      }
    }
  }

  lemma NoDuplicatesPermutation<T>(a: seq<T>, b: seq<T>)
    requires NoDuplicates(a)
    requires multiset(a) == multiset(b)
    ensures NoDuplicates(b)
  {
    forall i, j | 0 <= i < j < |b| ensures b[i] != b[j] {
      if b[i] == b[j] {
        var x := b[i];
        assert b == b[..j] + [b[j]] + b[j + 1..];
        assert x in b[..j];
        assert multiset(b)[x] >= 2 by {
          assert multiset(b) == multiset(b[..j]) + multiset{x} + multiset(b[j + 1..]);
        }
        NoDuplicatesCount(a, x);
        assert false;
      }
    }
  }

  /** Sorting a sequence without duplicates gives a strictly ascending one. */
  lemma SortDistinct(xs: seq<string>)
    requires NoDuplicates(xs)
    ensures StrictlyAscending(Sort(xs))
    ensures forall x :: x in Sort(xs) <==> x in xs
  {
    SortSpec(xs);
    var r := Sort(xs);
    NoDuplicatesPermutation(xs, r);
    forall x ensures x in r <==> x in xs {
      assert x in r <==> x in multiset(r);
      assert x in xs <==> x in multiset(xs);
    }
  }
}

=== FILE: strings.dfy ===
/**
 * String rules the catalogue relies on: the order JavaScript's default `sort()`
 * uses, ASCII lower-casing, the `LIKE` pattern language the store evaluates,
 * `Array.prototype.join`, and the decimal text of a number.
 */
module Strings {
  import opened Wrappers

  // ---------------------------------------------------------------------------
  // Lexicographic order on characters, a proper prefix first
  // ---------------------------------------------------------------------------

  /** `a` sorts strictly before `b`. */
  predicate LexLess(a: string, b: string)
    decreases |a|
  {
    if a == [] then b != []
    else if b == [] then false
    else if a[0] != b[0] then a[0] < b[0]
    else LexLess(a[1..], b[1..])
  }

  /** `a` sorts before `b` or is `b`. */
  predicate LexLeq(a: string, b: string) {
    a == b || LexLess(a, b)
  }

  lemma {:induction false} LexLessIrreflexive(a: string)
    ensures !LexLess(a, a)
    decreases |a|
  {
    if a != [] {
      LexLessIrreflexive(a[1..]);
    }
  }

  lemma {:induction false} LexLessAsymmetric(a: string, b: string)
    requires LexLess(a, b)
    ensures !LexLess(b, a)
    decreases |a|
  {
    if a != [] && b != [] && a[0] == b[0] {
      LexLessAsymmetric(a[1..], b[1..]);
    }
  }

  lemma {:induction false} LexLessTransitive(a: string, b: string, c: string)
    requires LexLess(a, b) && LexLess(b, c)
    ensures LexLess(a, c)
    decreases |a|
  {
    if a != [] && b != [] && c != [] && a[0] == b[0] && b[0] == c[0] {
      LexLessTransitive(a[1..], b[1..], c[1..]);
    }
  }

  /** Any two different strings are ordered one way or the other. */
  lemma {:induction false} LexLessTotal(a: string, b: string)
    requires a != b
    ensures LexLess(a, b) || LexLess(b, a)
    decreases |a|
  {
    if a != [] && b != [] && a[0] == b[0] {
      assert a == [a[0]] + a[1..] && b == [b[0]] + b[1..];
      LexLessTotal(a[1..], b[1..]);
    }
  }

  lemma LexLeqTransitive(a: string, b: string, c: string)
    requires LexLeq(a, b) && LexLeq(b, c)
    ensures LexLeq(a, c)
  {
    if a != b && b != c {
      LexLessTransitive(a, b, c);
    }
  }

  lemma LexLeqAntisymmetric(a: string, b: string)
    requires LexLeq(a, b) && LexLeq(b, a)
    ensures a == b
  {
    if a != b {
      LexLessAsymmetric(a, b);
    }
  }

  // ---------------------------------------------------------------------------
  // ASCII lower-casing
  // ---------------------------------------------------------------------------

  function LowerChar(c: char): char {
    if 'A' <= c <= 'Z' then (c as int - 'A' as int + 'a' as int) as char else c
  }

  function Lower(s: string): (r: string)
    ensures |r| == |s|
  {
    if s == [] then [] else [LowerChar(s[0])] + Lower(s[1..])
  }

  lemma {:induction false} LowerAt(s: string, i: nat)
    requires i < |s|
    ensures Lower(s)[i] == LowerChar(s[i])
    decreases |s|
  {
    if i > 0 {
      LowerAt(s[1..], i - 1);
    }
  }

  /** Lower-casing leaves a string without capital letters as it is. */
  lemma {:induction false} LowerWithoutCapitals(s: string)
    requires forall i :: 0 <= i < |s| ==> !('A' <= s[i] <= 'Z')
    ensures Lower(s) == s
    decreases |s|
  {
    if s != [] {
      LowerWithoutCapitals(s[1..]);
      assert s == [s[0]] + s[1..];
    }
  }

  lemma {:induction false} LowerConcat(a: string, b: string)
    ensures Lower(a + b) == Lower(a) + Lower(b)
    decreases |a|
  {
    if a == [] {
      assert a + b == b;
    } else {
      assert (a + b)[0] == a[0] && (a + b)[1..] == a[1..] + b;
      LowerConcat(a[1..], b);
    }
  }

  // ---------------------------------------------------------------------------
  // The LIKE pattern language: `%` matches any run of characters, `_` one
  // character, every other character itself.
  // ---------------------------------------------------------------------------

  predicate Like(s: string, p: string)
    decreases |s| + |p|
  {
    if p == [] then s == []
    else if p[0] == '%' then Like(s, p[1..]) || (s != [] && Like(s[1..], p))
    else s != [] && (p[0] == '_' || s[0] == p[0]) && Like(s[1..], p[1..])
  }

  /** Case-insensitive `LIKE` (ASCII letters only). */
  predicate ILike(s: string, p: string) {
    Like(Lower(s), Lower(p))
  }

  /**
   * `q` stands for itself inside `%q%` as the store receives it: no `LIKE`
   * wildcard (`%`, `_`), no `LIKE` escape (`\`), no PostgREST wildcard alias
   * (`*`) and none of the characters that structure a PostgREST `or` filter
   * (`,`, `(`, `)`).
   */
  predicate Literal(q: string) {
    forall i :: 0 <= i < |q| ==> !Special(q[i])
  }

  predicate Special(c: char) {
    c == '%' || c == '_' || c == '*' || c == '\\' || c == ',' || c == '(' || c == ')'
  }

  /** `n` occurs in `h` starting at index `i`. */
  predicate OccursAt(h: string, n: string, i: int) {
    0 <= i <= |h| - |n| && h[i..i + |n|] == n
  }

  /** `n` occurs in `h` as a contiguous substring. */
  predicate Contains(h: string, n: string) {
    exists i | 0 <= i <= |h| - |n| :: OccursAt(h, n, i)
  }

  predicate ContainsIgnoringCase(h: string, n: string) {
    Contains(Lower(h), Lower(n))
  }

  lemma {:induction false} LikeTrailingPercentAny(s: string)
    ensures Like(s, "%")
    decreases |s|
  {
    if s != [] {
      LikeTrailingPercentAny(s[1..]);
    }
  }

  /** A literal followed by `%` matches exactly the strings it begins. */
  lemma {:induction false} LikeLiteralPrefix(s: string, q: string)
    requires Literal(q)
    ensures Like(s, q + "%") <==> |q| <= |s| && s[..|q|] == q
    decreases |q|
  {
    if q == [] {
      assert q + "%" == "%";
      LikeTrailingPercentAny(s);
    } else {
      assert (q + "%")[1..] == q[1..] + "%";
      assert Literal(q[1..]) by {
        forall i | 0 <= i < |q[1..]| ensures q[1..][i] != '%' && q[1..][i] != '_' {
          assert q[1..][i] == q[i + 1];
        }
      }
      assert q[0] != '%' && q[0] != '_';
      if s != [] {
        LikeLiteralPrefix(s[1..], q[1..]);
        if |q| <= |s| {
          assert s[..|q|] == [s[0]] + s[1..][..|q| - 1];
          assert q == [q[0]] + q[1..];
        }
      }
    }
  }

  /** A pattern opened by `%` matches when its rest matches some suffix. */
  lemma {:induction false} LikeLeadingPercent(s: string, t: string)
    ensures Like(s, "%" + t) <==> exists i :: 0 <= i <= |s| && Like(s[i..], t)
    decreases |s|
  {
    var p := "%" + t;
    assert p[1..] == t;
    if s == [] {
      if Like(s, p) {
        assert Like(s[0..], t);
      }
    } else {
      LikeLeadingPercent(s[1..], t);
      if Like(s, p) {
        if !Like(s, t) {
          assert Like(s[1..], p);
          var j :| 0 <= j <= |s[1..]| && Like(s[1..][j..], t);
          assert s[1..][j..] == s[j + 1..];
        } else {
          assert s[0..] == s;
        }
      }
      if exists i :: 0 <= i <= |s| && Like(s[i..], t) {
        var i :| 0 <= i <= |s| && Like(s[i..], t);
        if i == 0 {
          assert s[0..] == s;
        } else {
          assert s[1..][i - 1..] == s[i..];
        }
      }
    }
  }

  /** The pattern `%q%` of a literal `q` is a substring test. */
  lemma LikeWrappedIsContains(s: string, q: string)
    requires Literal(q)
    ensures Like(s, "%" + q + "%") <==> Contains(s, q)
  {
    assert "%" + q + "%" == "%" + (q + "%");
    LikeLeadingPercent(s, q + "%");
    if Like(s, "%" + q + "%") {
      var i :| 0 <= i <= |s| && Like(s[i..], q + "%");
      LikeLiteralPrefix(s[i..], q);
      assert s[i..][..|q|] == s[i..i + |q|];
      assert OccursAt(s, q, i);
    }
    if Contains(s, q) {
      var i :| 0 <= i <= |s| - |q| && OccursAt(s, q, i);
      LikeLiteralPrefix(s[i..], q);
      assert s[i..][..|q|] == s[i..i + |q|];
    }
  }

  lemma LowerLiteral(q: string)
    requires Literal(q)
    ensures Literal(Lower(q))
  {
    forall i | 0 <= i < |q| ensures !Special(Lower(q)[i]) {
      LowerAt(q, i);
    }
  }

  /**
   * Case-insensitive `LIKE '%q%'` of a literal `q` holds exactly when `q`
   * occurs in `s` once both are lower-cased.
   */
  lemma {:induction false} ILikeWrappedIsContains(s: string, q: string)
    requires Literal(q)
    ensures ILike(s, "%" + q + "%") <==> ContainsIgnoringCase(s, q)
  {
    LowerConcat("%", q);
    LowerConcat("%" + q, "%");
    assert Lower("%") == "%";
    LowerLiteral(q);
    LikeWrappedIsContains(Lower(s), Lower(q));
  }

  // ---------------------------------------------------------------------------
  // `filter(Boolean).join(sep)` over optional strings
  // ---------------------------------------------------------------------------

  /** The present, non-empty strings of `xs`, in order: `xs.filter(Boolean)`. */
  function Compact(xs: seq<Option<string>>): (r: seq<string>)
    ensures forall s {:trigger s in r} :: s in r <==> Some(s) in xs && s != ""
    ensures |r| <= |xs|
  {
    if xs == [] then []
    else if xs[0].Some? && xs[0].value != "" then [xs[0].value] + Compact(xs[1..])
    else Compact(xs[1..])
  }

  /** What `filter(Boolean)` keeps of one element: its string, if truthy. */
  function Present(x: Option<string>): (r: seq<string>)
    ensures r == [] || (x.Some? && r == [x.value])
    ensures r != [] <==> x.Some? && x.value != ""
  {
    if x.Some? && x.value != "" then [x.value] else []
  }

  /** `filter(Boolean)` keeps the first element's string, if truthy, in front of the rest. */
  lemma CompactCons(x: Option<string>, xs: seq<Option<string>>)
    ensures Compact([x] + xs) == Present(x) + Compact(xs)
  {
    assert ([x] + xs)[1..] == xs;
  }

  /**
   * `filter(Boolean)` works element by element: it keeps order and
   * multiplicity across a concatenation.
   */
  lemma {:induction false} CompactAppend(xs: seq<Option<string>>, ys: seq<Option<string>>)
    ensures Compact(xs + ys) == Compact(xs) + Compact(ys)
    decreases |xs|
  {
    if xs == [] {
      assert xs + ys == ys;
    } else {
      var x, rest := xs[0], xs[1..];
      assert Compact(xs + ys) == Present(x) + Compact(rest + ys) by {
        assert xs + ys == [x] + (rest + ys);
        CompactCons(x, rest + ys);
      }
      assert Compact(xs) == Present(x) + Compact(rest) by {
        assert xs == [x] + rest;
        CompactCons(x, rest);
      }
      CompactAppend(rest, ys);
      assert Present(x) + (Compact(rest) + Compact(ys)) == (Present(x) + Compact(rest)) + Compact(ys);
    }
  }

  /** `Array.prototype.join`: the elements with `sep` between neighbours. */
  function Join(xs: seq<string>, sep: string): string {
    if xs == [] then ""
    else if |xs| == 1 then xs[0]
    else xs[0] + sep + Join(xs[1..], sep)
  }

  /** Joining non-empty strings gives the empty string only for no strings. */
  lemma JoinEmptyIff(xs: seq<string>, sep: string)
    requires forall s :: s in xs ==> s != ""
    ensures Join(xs, sep) == "" <==> xs == []
  {
    if xs != [] {
      assert xs[0] in xs;
      assert |Join(xs, sep)| >= |xs[0]|;
    }
  }

  // ---------------------------------------------------------------------------
  // Decimal text of a number: `String(n)` for an integer
  // ---------------------------------------------------------------------------

  predicate IsDigit(c: char) {
    '0' <= c <= '9'
  }

  function DigitChar(d: nat): (c: char)
    requires d < 10
    ensures IsDigit(c)
  {
    ('0' as int + d) as char
  }

  /** The shortest decimal numeral of `n`. */
  function NatToString(n: nat): (r: string)
    ensures r != []
    ensures forall i :: 0 <= i < |r| ==> IsDigit(r[i])
    ensures r[0] == '0' ==> n == 0
    decreases n
  {
    if n < 10 then [DigitChar(n)] else NatToString(n / 10) + [DigitChar(n % 10)]
  }

  function DigitValue(c: char): nat
    requires IsDigit(c)
  {
    c as int - '0' as int
  }

  /** The number a string of decimal digits denotes. */
  function DigitsValue(s: string): nat
    requires forall i :: 0 <= i < |s| ==> IsDigit(s[i])
  {
    if s == [] then 0
    else DigitsValue(s[..|s| - 1]) * 10 + DigitValue(s[|s| - 1])
  }

  /** Reading the numeral back gives the number: no two numbers share a text. */
  lemma {:induction false} NatToStringRoundTrip(n: nat)
    ensures DigitsValue(NatToString(n)) == n
    decreases n
  {
    var r := NatToString(n);
    if n >= 10 {
      var a := NatToString(n / 10);
      assert r[..|r| - 1] == a;
      NatToStringRoundTrip(n / 10);
    }
  }

  /**
   * `s` is the shortest decimal numeral of `n`: a non-empty run of digits
   * with no leading zero (except "0" itself) that reads as `n`.
   */
  predicate Numeral(s: string, n: nat) {
    && s != []
    && (forall i :: 0 <= i < |s| ==> IsDigit(s[i]))
    && (s[0] == '0' ==> |s| == 1)
    && DigitsValue(s) == n
  }

  /**
   * `String(n)`: the numeral of `|n|`, after a minus sign when `n` is
   * negative.
   */
  function IntToString(n: int): (r: string)
    ensures n >= 0 ==> Numeral(r, n)
    ensures n < 0 ==> |r| >= 2 && r[0] == '-' && Numeral(r[1..], -n)
  {
    if n < 0 then
      NatToStringRoundTrip(-n);
      assert ("-" + NatToString(-n))[1..] == NatToString(-n);
      "-" + NatToString(-n)
    else
      NatToStringRoundTrip(n);
      NatToString(n)
  }
}

=== FILE: wrappers.dfy ===
/** Optional values and store replies. */
module Wrappers {

  /** A value that may be absent: JavaScript's `null`/`undefined` for a field. */
  datatype Option<+T> = None | Some(value: T)

  /** The outcome of a call into the record store: rows, or the error it reported. */
  datatype Result<+T, +E> = Success(value: T) | Failure(error: E)
}
